=== FILE: README.md ===
# Financial filings RAG: ingestion and query core in Dafny

This project models the deterministic core of a retrieval-augmented question-answering
service over company filings (10-K, 10-Q, earnings material). It covers four parts:

- **PDF parsing into provenance blocks** (`pdf_parser.dfy`). Each page of a filing becomes:
  - at most one paragraph block, holding the raw page text and its right-stripped lines,
    numbered from 1;
  - one table block per extracted table, holding its trimmed cells in row-major order and
    one `" | "`-joined line per row.

  Block ids are `p_{page}_{n}` / `t_{page}_{n}`, where `n` is a running count across the
  whole document. Citations point back into this structure.
- **Query entity extraction** (`query_parser.dfy`):
  - the current fiscal quarter;
  - the `CURRENT_QUARTER` placeholder;
  - the regular-expression fallback for tickers and `Q#-YYYY` periods;
  - locating the JSON object in the language model's reply;
  - the merge and clarification decision of `QueryParser.parse`.
- **Retrieval** (`retriever.dfy`):
  - the blank-query guard;
  - the metadata filter (`where`) sent to the vector store;
  - the similarity gate `clamp(1 - d/2, 0, 1) >= min` over cosine distances.
- **Citations** (`citation.dfy`): each retrieved chunk's metadata projected onto the
  `Citation` record, with each field's own defaulting rule.

`strings.dfy` holds the Python string operations the core uses, restricted to ASCII:
`strip`/`rstrip`, `upper`/`lower`, `join`, splitting at `'\n'`, `str(int)` and `int(str)`,
and the leftmost search that `re.search` performs. `document_model.dfy` holds the shared
records: Document, Block, Line, TableCell and Chunk. `wrappers.dfy` holds `Option`.

Where the source is imperative, so is the model:
- `_extract_paragraph_blocks`, `_extract_table_blocks`, the page loop of
  `parse_pdf_to_document`, `_fallback_parse`, the gate loop of `Retriever.retrieve` and
  `build_citations` are methods with loops and invariants;
- each of these loops is proved equal to a specification function (`ParagraphBlocks`,
  `TableBlocks`, `DocumentBlocks`, `FallbackTickers`/`FallbackPeriod`, `Gate`, `ToCitation`);
- the guarantees of the source are lemmas about those functions, or `ensures` of the
  functions themselves.

`QueryParser.Parse` and `Retriever.Retrieve` are methods without a specification function
of their own. Their `ensures` state each field of the result, in terms of the functions
above: the reply, the fallback, `BuildWhere` and `Gate`.

The code and the design intent differ in four places. The model follows the code, and a
lemma exhibits each difference:
- The ticker fallback also collects ordinary short words such as `DID` or `HOW`; only six
  stop words are skipped (`QueryParser.FallbackCollectsShortWords`).
- The block counter runs across the whole document, not per page
  (`PdfProvenance.DocumentWideCounter`).
- A paragraph block's `text` is the raw page text, while its lines are right-stripped
  (`PdfProvenance.ParagraphTextIsRaw`).
- A table with no rows still produces a block (`PdfProvenance.EmptyTableBlock`).

Two more behaviours of the code are modelled as written:
- When there is no fenced block, `_extract_json_block` returns the leftmost `{...}` that has
  no braces inside it. For a nested JSON object this is an inner object, not the whole
  reply (`QueryParser.BraceObjectShape`).
- `str(None)` makes an explicit `None` `doc_id` the text "None"
  (`Citations.NullDocIdPrintsNone`).

## Model

| member | source | states |
|---|---|---|
| PdfParser.BlockIdInjective | backend/ingestion/parsers/pdf_parser.py:20 | a block id `p_/t_{page}_{n}` determines the block kind, the page and the running number |
| PdfParser.ExtractParagraphBlocks | backend/ingestion/parsers/pdf_parser.py:11-27 | the result is ParagraphBlocks: none for a blank page, else one paragraph block with id `p_{page}_{start}`, the raw text and the right-stripped lines numbered from 1 |
| PdfParser.ReadRow | backend/ingestion/parsers/pdf_parser.py:40-43 | the cells of row r are TableCell(r, c, trimmed text) for every column c in order, and the row's text items are those texts |
| PdfParser.BuildTableBlock | backend/ingestion/parsers/pdf_parser.py:35-55 | the block of one table: all its cells row by row, one line per row numbered from 1, text the newline-join of the lines, id `t_{page}_{n}` |
| PdfParser.ExtractTableBlocks | backend/ingestion/parsers/pdf_parser.py:30-58 | one table block per table, in order, numbered consecutively from the starting id |
| PdfParser.ExtendWithPage | backend/ingestion/parsers/pdf_parser.py:73-77 | appending page n's paragraph blocks and then its table blocks, numbered from the current block count, turns the blocks of pages 1..n-1 into those of pages 1..n |
| PdfParser.ParsePdfToDocument | backend/ingestion/parsers/pdf_parser.py:61-88 | the document's blocks are DocumentBlocks(pages) and its metadata is the given metadata |
| PdfProvenance.ParagraphLinesClean | backend/ingestion/parsers/pdf_parser.py:16-18 | one paragraph line per piece of the page text, numbered 1..n contiguously, none holding a line break or trailing whitespace |
| PdfProvenance.ParagraphLinesRejoin | backend/ingestion/parsers/pdf_parser.py:17-18 | when no piece has trailing whitespace, the lines re-joined with newlines give back the page text up to its final newline |
| PdfProvenance.ParagraphTextIsRaw | backend/ingestion/parsers/pdf_parser.py:18-23 | for the page text "x \ny" the block text stays "x \ny" while its lines re-join to "x\ny" |
| PdfProvenance.CellTextSpec | backend/ingestion/parsers/pdf_parser.py:41 | a missing cell becomes ""; a present cell's text is a piece of the cell with only whitespace before and after it, empty exactly when the cell is blank, and never starting or ending with whitespace |
| PdfProvenance.TableCellsRowMajor | backend/ingestion/parsers/pdf_parser.py:38-42 | exactly one cell per (row, column) of the table, at its row-major position, carrying that cell's trimmed text, and no other cell |
| PdfProvenance.TableLinesMatchCells | backend/ingestion/parsers/pdf_parser.py:38-45 | line r+1 of a table block is the texts of row r's cells, read from the block's own cells in column order, joined with " \| " |
| PdfProvenance.TableTextSplitsIntoLines | backend/ingestion/parsers/pdf_parser.py:44-47 | for a non-empty table without line breaks in its cells, splitting the block text at newlines gives back the line texts, one per row, numbered from 1 |
| PdfProvenance.EmptyTableBlock | backend/ingestion/parsers/pdf_parser.py:34-58 | a table with no rows still yields a table block with its id, empty text, no lines and no cells |
| PdfProvenance.PageBlocksShape | backend/ingestion/parsers/pdf_parser.py:11-58 | a page yields one block for non-blank text plus one per table, numbered on from the start, all on that page, only the first possibly a paragraph, holding the page text |
| PdfProvenance.DocumentBlockCount | backend/ingestion/parsers/pdf_parser.py:73-77 | the document has one block per non-blank page plus one per table |
| PdfProvenance.DocumentBlockProvenance | backend/ingestion/parsers/pdf_parser.py:73-77 | block i has id suffix i, lies on a page in 1..number of pages, and a paragraph block holds that page's text and lines |
| PdfProvenance.DocumentBlockIdsUnique | backend/ingestion/parsers/pdf_parser.py:73-77 | no two blocks of a document share an id |
| PdfProvenance.DocumentPageOrder | backend/ingestion/parsers/pdf_parser.py:73-77 | blocks appear in ascending page order, and a page's paragraph block precedes its table blocks |
| PdfProvenance.DocumentWideCounter | backend/ingestion/parsers/pdf_parser.py:74-76 | in a two-page text-only document the second paragraph's id is "p_2_1": the counter is not reset per page |
| Strings.Strip | backend/ingestion/parsers/pdf_parser.py:14 | stripping yields the empty string exactly when the text is blank |
| Strings.RStripSpec | backend/ingestion/parsers/pdf_parser.py:18 | rstrip keeps a prefix that ends in a non-space and removes only whitespace |
| Strings.StripSpec | backend/ingestion/parsers/pdf_parser.py:41 | strip returns a piece `s[a..b]` of the string with only whitespace before `a` and from `b` on, leaves no whitespace at either end, and is idempotent |
| Strings.SplitLinesRoundTrip | backend/ingestion/parsers/pdf_parser.py:17 | the line pieces re-joined with newlines, plus a final newline if the text had one, give back the text |
| Strings.SplitOnJoin | backend/ingestion/parsers/pdf_parser.py:47 | joining pieces without the separator and splitting at it gives the pieces back |
| Strings.JoinSplitOn | backend/ingestion/parsers/pdf_parser.py:47 | splitting at a separator and joining with it gives the text back |
| Strings.ParseNatToString | backend/ingestion/parsers/pdf_parser.py:20 | the decimal numeral of n reads back as n |
| Strings.IntToString | backend/app/services/citation.py:15 | `str` of an integer is its decimal numeral, led by "-" when negative, and the digits read back as the integer's magnitude |
| Strings.FirstIndex | backend/app/services/query_parser.py:90 | the least index in the range satisfying the test, or none when no index does |
| QueryParser.Quarter | backend/app/services/query_parser.py:49 | for a month in 1..12 the quarter q is in 1..4 and 3q-2 <= month <= 3q, i.e. the ceiling of month/3 |
| QueryParser.CurrentQuarter | backend/app/services/query_parser.py:46-50 | the current quarter is "Q", the digit of the month's quarter, "-", then a numeral that reads back as the year |
| QueryParser.ResolveRelativePeriod | backend/app/services/query_parser.py:53-57 | the resolved period is never the placeholder "CURRENT_QUARTER", and it is missing exactly when the input period is missing; the placeholder becomes "Q", the month's quarter digit, "-" and a decimal numeral that reads back as the given year |
| QueryParser.CurrentQuarterIsNormal | backend/app/services/query_parser.py:46-50 | for a four-digit year the current quarter is "Q{q}-{year}" in the normal form Q#-YYYY |
| QueryParser.ResolveRelativePeriodSpec | backend/app/services/query_parser.py:53-57 | resolving twice is resolving once; every value but the placeholder is unchanged; a resolved placeholder is the current quarter of the given month and year; for a four-digit year it is a normal Q#-YYYY period naming the month's quarter and, after the dash, that year's numeral |
| QueryParser.TickerAttemptSpec | backend/app/services/query_parser.py:61 | at a word start, trying 5 down to 1 letters finds the whole word of upper-case letters, or no length works |
| QueryParser.TickerMatchAt | backend/app/services/query_parser.py:61 | a ticker match is 1 to 5 characters long and lies within the text |
| QueryParser.TickerMatchAtSpec | backend/app/services/query_parser.py:61 | the ticker pattern matches at i with length l exactly when a whole word of l (1..5) upper-case letters starts at i |
| QueryParser.FindAllTickers | backend/app/services/query_parser.py:84 | `findall` never returns more matches than there are characters left to scan |
| QueryParser.FindAllTickersSound | backend/app/services/query_parser.py:84 | every string `findall` collects is a whole word of 1..5 upper-case letters of the text |
| QueryParser.FindAllTickersComplete | backend/app/services/query_parser.py:84 | every whole word of 1..5 upper-case letters is collected by `findall` |
| QueryParser.MatchPositionsIncrease | backend/app/services/query_parser.py:84 | the positions where `findall` finds its matches lie at or after the scan start and strictly increase |
| QueryParser.MatchPositionsWords | backend/app/services/query_parser.py:84 | the k-th string `findall` returns is the whole ticker-shaped word at the k-th match position |
| QueryParser.MatchPositionsComplete | backend/app/services/query_parser.py:84 | every whole ticker-shaped word starts at one of the match positions |
| QueryParser.WithoutStopWords | backend/app/services/query_parser.py:85-88 | the kept candidates are exactly those not in {THE, AND, FOR, WITH, THIS, THAT} |
| QueryParser.Dedup | backend/app/services/query_parser.py:95 | de-duplication leaves no duplicates and the same set of elements |
| QueryParser.DedupKeepsFirstOccurrenceOrder | backend/app/services/query_parser.py:95 | de-duplicated elements keep the order of their first occurrences |
| QueryParser.FallbackTickers | backend/app/services/query_parser.py:83-95 | a fallback ticker list is never empty (an empty one becomes None) and has no duplicates |
| QueryParser.FallbackTickersSpec | backend/app/services/query_parser.py:83-95 | fallback tickers are non-stop whole words of 1..5 letters of the upper-cased question; every such word is included; the result is None exactly when there is no such word |
| QueryParser.FallbackTickersOrder | backend/app/services/query_parser.py:83-95 | fallback tickers are listed in the order of their first appearance: for a ticker listed before another, every whole-word occurrence of the later one in the upper-cased question has an occurrence of the earlier one to its left |
| QueryParser.FallbackCollectsShortWords | backend/app/services/query_parser.py:84-86 | for "did AMZN" the fallback returns DID as well as AMZN |
| QueryParser.FallbackParse | backend/app/services/query_parser.py:77-96 | the loop over the ticker matches and the period search give FallbackTickers and FallbackPeriod |
| QueryParser.PeriodMatchAt | backend/app/services/query_parser.py:90-93 | a period match starts with q or Q, fits in the text, and its normalised form is a Q#-YYYY period carrying the matched quarter digit |
| QueryParser.PeriodMatchAtSpec | backend/app/services/query_parser.py:60 | the period pattern matches at i giving p exactly when q or Q, a digit 1..4, then four digits follow, either directly or after one '-' or whitespace character, and p is "Q", that digit, "-" and those four digits |
| QueryParser.PeriodSeparators | backend/app/services/query_parser.py:90-93 | "Q3 2025" and "q32025" both give the period Q3-2025 |
| QueryParser.FallbackPeriod | backend/app/services/query_parser.py:90-93 | a fallback period is always in the normal form Q#-YYYY |
| QueryParser.FallbackPeriodLeftmost | backend/app/services/query_parser.py:60 | the fallback period is the normalised match at the leftmost matching position, and None when the pattern matches nowhere |
| QueryParser.FallbackPeriodIdempotent | backend/app/services/query_parser.py:90-93 | a period already in normal form is found again unchanged |
| QueryParser.FallbackPeriodIgnoresCase | backend/app/services/query_parser.py:60 | lower-casing the question does not change the period found |
| QueryParser.CurrentQuarterRoundTrip | backend/app/services/query_parser.py:50 | the fallback reads the current quarter string back as itself |
| QueryParser.FencedObjectAtSpec | backend/app/services/query_parser.py:67 | the fenced pattern matches at i exactly when "```json" (any case) starts there and, after optional whitespace, a '{' is followed later by a '}' that closes the fence with optional whitespace and "```" |
| QueryParser.FencedObjectAtValue | backend/app/services/query_parser.py:67 | a fenced match is the text from that '{' to the first '}' that closes the fence (lazy `.*?`) |
| QueryParser.FencedObjectOccurs | backend/app/services/query_parser.py:67 | a fenced match is a piece of the reply |
| QueryParser.LeftmostFencedObject | backend/app/services/query_parser.py:67-69 | a fenced object opens with '{', closes with '}' and is a piece of the reply |
| QueryParser.LeftmostFencedObjectSpec | backend/app/services/query_parser.py:67-69 | the fenced search returns the object at the least position with one, and nothing when no position has one |
| QueryParser.LeftmostBraceObject | backend/app/services/query_parser.py:71-73 | the brace fallback returns a braced piece of the reply with no brace inside |
| QueryParser.LeftmostBraceObjectSpec | backend/app/services/query_parser.py:71-73 | the brace search returns the object at the least position with one, and nothing when no position has one |
| QueryParser.BraceObjectShape | backend/app/services/query_parser.py:71 | a brace match opens with '{', closes with '}' and has no brace inside |
| QueryParser.BraceObjectAtSpec | backend/app/services/query_parser.py:71 | the brace pattern matches at i exactly when a '{' there is followed by a '}' with no brace between; the match runs to the first such '}' and is a piece of the reply |
| QueryParser.ExtractJsonBlock | backend/app/services/query_parser.py:64-74 | any returned block opens with '{', closes with '}' and is a piece of the reply |
| QueryParser.ExtractJsonBlockSpec | backend/app/services/query_parser.py:64-74 | a fenced object is preferred, else the leftmost brace-free object; None exactly when neither pattern matches anywhere |
| QueryParser.JsonCandidate | backend/app/services/query_parser.py:121 | the decoder gets exactly the extracted block when one is found and the whole reply otherwise; either way a piece of the reply that is a braced block or the whole reply |
| QueryParser.Parse | backend/app/services/query_parser.py:118-160 | a malformed reply gives (None, None, True, failure message); otherwise the model's tickers (upper-cased) and resolved period are kept when non-empty, the fallback fills only missing or empty fields, clarification is needed iff the model asks or a field is still empty, and the message is the model's own except that the default replaces a missing or empty one when a field is still empty |
| Retriever.BuildWhere | backend/app/services/retriever.py:39-50 | the filter is {} without tickers or period, the lower-cased ticker condition or the period condition alone when only one is given, and both under $and, tickers first, when both are given |
| Retriever.BuildWhereMeaning | backend/app/services/retriever.py:37-50 | the filter admits a chunk exactly when its ticker is one of the lower-cased tickers (if tickers are given) and its period equals the period (if one is given) |
| Retriever.Similarity | backend/app/services/retriever.py:59 | the similarity is always in [0, 1] |
| Retriever.SimilarityThreshold | backend/app/services/retriever.py:59-60 | for a threshold m in (0, 1] a result is kept iff its distance is at most 2 - 2m; m <= 0 keeps all, m > 1 keeps none |
| Retriever.SimilarityMonotone | backend/app/services/retriever.py:59 | a larger distance never gives a larger similarity |
| Retriever.Gate | backend/app/services/retriever.py:57-62 | a result is kept iff it is a store result whose similarity reaches the threshold; the output is no longer than the input |
| Retriever.GateAppend | backend/app/services/retriever.py:57-62 | the gate distributes over concatenation, so kept results keep their order, unmodified |
| Retriever.GateKeepsAll | backend/app/services/retriever.py:54-62 | a threshold at or below 0 returns the store results unchanged |
| Retriever.Retrieve | backend/app/services/retriever.py:13-62 | a blank query without allow_blank_query returns [] and the store is not asked; otherwise the store gets the query and k unchanged with the built filter, and its results come back as they are without a threshold and through the gate with one |
| Citations.PyStr | backend/app/services/citation.py:15 | `str(v)` of a truthy value is non-empty; of a string it is the string itself, of an integer its decimal numeral (led by "-" when negative) that reads back as the integer, and of None the text "None" |
| Citations.StrOrEmpty | backend/app/services/citation.py:16-20 | `str(meta.get(key) or "")` is "" exactly when the entry is missing or falsy, and otherwise the entry's string form |
| Citations.StrOrNone | backend/app/services/citation.py:24-25 | `str(meta.get(key) or "") or None` is None exactly when the entry is missing or falsy, and otherwise the entry's non-empty string form |
| Citations.PageOf | backend/app/services/citation.py:21 | the page is None when page_start is missing, falsy or reads as 0, and otherwise its non-zero integer value |
| Citations.ToCitation | backend/app/services/citation.py:14-26 | doc_id is the string form, "" only when absent; each text field is the entry's string form when it is truthy and "" otherwise, never None; page is None when missing, falsy or 0, else its value; line numbers are copied; table_id and source_url are None when missing or empty, else their string |
| Citations.BuildCitations | backend/app/services/citation.py:9-28 | one citation per chunk, in order, citation i made from chunk i's metadata only |
| Citations.NullDocIdPrintsNone | backend/app/services/citation.py:15-16 | an explicit None doc_id becomes "None" while a None title becomes "" |
| Citations.ZeroPageNumeralHasNoPage | backend/app/services/citation.py:21 | a page_start of "0" is truthy yet gives no page |

## Left out

- PDF access: opening the file and the text and table extraction of the PDF library are not
  modelled. A page is given as its extracted text and tables. A page whose library text is
  `None` is modelled as the empty text, which `or ""` turns it into.
- Line splitting: only `'\n'` separates lines. Python's `splitlines` also splits at `\r`,
  `\x0b`, `\x0c`, `\x1c`-`\x1e`, `\x85` and Unicode separators.
- Character semantics are ASCII only: whitespace for `strip` and `\s`, `upper`/`lower`,
  `\b`/`\w`, `\d` and case-insensitive matching. Python applies the Unicode rules, which also
  change lengths (for example `'ß'.upper()`).
- The language model call, the prompt text, `json.loads` and the clock are not modelled.
  `Parse` takes the model's reply text, a decoding function standing for `json.loads` plus
  reading the four keys, and the current month and year.
- Parse: reply values of unexpected JSON types are not modelled (a non-boolean
  `needs_clarification`, non-string tickers, a non-object reply). `Reply.Decoded` carries
  exactly the types the prompt asks for. Non-object replies and non-string ticker items make
  the source raise an error its `except` clause does not catch.
- Retrieve: the vector store (backend/vectorstore/chroma_store.py) is a function parameter
  from (query, k, filter) to results. Its ranking and embedding are not part of this model.
  What a filter admits is stated by `WhereHolds`, following the store's `$in`, equality and
  `$and` operators.
- Retriever.Similarity: distances and thresholds are exact reals. IEEE floating-point
  rounding, NaN and infinite distances are not modelled.
- BuildCitations: metadata values are strings, integers or `None`. Floats and booleans are
  not modelled. Each integer entry (`page_start` when truthy, `line_start`, `line_end` when
  not `None`) must be an integer or a plain decimal numeral. Other strings are not modelled.
- ToCitation: same domain restriction as BuildCitations.
- Section tagging, the chunker, the HTML parser, the answer service, the HTTP routes, the
  configuration, the command-line scripts and the web front end are not part of this model.
- `parse_pdf_to_document` stores the file path as `local_path`; here it is a string
  parameter.


=== FILE: citation.dfy ===
/**
 * `build_citations` (backend/app/services/citation.py): each retrieved chunk's flat metadata
 * projected onto the `Citation` record of backend/app/schemas.py, field by field, with the
 * defaulting rule of each field: `str(...)`, `... or ""`, `... or None` and `int(...)` as
 * Python evaluates them on a metadata value that is a string, an integer or `None`.
 */
module Citations {
  import opened Wrappers
  import opened Strings
  import opened DocumentModel

  /** The `Citation` response record; only `doc_id` is mandatory. */
  datatype Citation = Citation(
    docId: string,
    docTitle: Option<string>,
    ticker: Option<string>,
    filingType: Option<string>,
    period: Option<string>,
    section: Option<string>,
    page: Option<int>,
    lineStart: Option<int>,
    lineEnd: Option<int>,
    tableId: Option<string>,
    sourceUrl: Option<string>)

  /** Python truthiness of a metadata value. */
  predicate Truthy(v: MetaVal) {
    match v
    case S(s) => s != []
    case I(n) => n != 0
    case Null => false
  }

  /** `str(v)`. */
  function PyStr(v: MetaVal): (r: string)
    ensures Truthy(v) ==> r != []
    ensures v.S? ==> r == v.str
    ensures v.I? && v.num >= 0 ==> IsNumeral(r) && ParseNat(r) == v.num
    ensures v.I? && v.num < 0 ==> |r| >= 2 && r[0] == '-' && IsNumeral(r[1..]) && ParseNat(r[1..]) == -v.num
    ensures v.Null? ==> r == "None"
  {
    match v
    case S(s) => s
    case I(n) => IntToString(n)
    case Null => "None"
  }

  /** `str(meta.get(key) or "")`: the value's string form when it is present and truthy. */
  function StrOrEmpty(meta: map<string, MetaVal>, key: string): (r: string)
    ensures r == [] <==> !(key in meta && Truthy(meta[key]))
    ensures key in meta && Truthy(meta[key]) ==> r == PyStr(meta[key])
  {
    if key in meta && Truthy(meta[key]) then PyStr(meta[key]) else ""
  }

  /** `str(meta.get(key) or "") or None`. */
  function StrOrNone(meta: map<string, MetaVal>, key: string): (r: Option<string>)
    ensures r.None? <==> !(key in meta && Truthy(meta[key]))
    ensures r.Some? ==> r.value == PyStr(meta[key]) && r.value != []
  {
    var s := StrOrEmpty(meta, key);
    if s == [] then None else Some(s)
  }

  /** A value that `int(...)` and the record's integer fields accept: an integer or a decimal
      numeral. */
  predicate IntLike(v: MetaVal) {
    v.I? || (v.S? && IsNumeral(v.str))
  }

  function IntValue(v: MetaVal): int
    requires IntLike(v)
  {
    if v.I? then v.num else ParseNat(v.str)
  }

  /** The metadata values that `build_citations` can read without raising: a truthy
      `page_start` goes through `int(...)`, and `line_start`/`line_end` must fit
      `Optional[int]`. */
  predicate Readable(meta: map<string, MetaVal>) {
    ("page_start" in meta && Truthy(meta["page_start"]) ==> IntLike(meta["page_start"])) &&
    ("line_start" in meta && !meta["line_start"].Null? ==> IntLike(meta["line_start"])) &&
    ("line_end" in meta && !meta["line_end"].Null? ==> IntLike(meta["line_end"]))
  }

  /** `int(meta.get("page_start") or 0) or None`. */
  function PageOf(meta: map<string, MetaVal>): (r: Option<int>)
    requires Readable(meta)
    ensures r.None? <==> !("page_start" in meta && Truthy(meta["page_start"])) || IntValue(meta["page_start"]) == 0
    ensures r.Some? ==> r.value != 0 && r.value == IntValue(meta["page_start"])
  {
    if "page_start" in meta && Truthy(meta["page_start"]) then
      var n := IntValue(meta["page_start"]);
      if n == 0 then None else Some(n)
    else None
  }

  /** `meta.get(key)` stored in an `Optional[int]` field. */
  function OptionalInt(meta: map<string, MetaVal>, key: string): Option<int>
    requires key in meta && !meta[key].Null? ==> IntLike(meta[key])
  {
    if key in meta && !meta[key].Null? then Some(IntValue(meta[key])) else None
  }

  /** The citation of one chunk's metadata. */
  function ToCitation(meta: map<string, MetaVal>): (c: Citation)
    requires Readable(meta)
    // doc_id: the string form of the entry, "" only when the key is absent
    ensures "doc_id" !in meta ==> c.docId == ""
    ensures "doc_id" in meta ==> c.docId == PyStr(meta["doc_id"])
    // text fields: always a string, "" exactly when the entry is missing or falsy
    ensures c.docTitle.Some? && c.ticker.Some? && c.filingType.Some? && c.period.Some? && c.section.Some?
    ensures c.docTitle.value == [] <==> !("title" in meta && Truthy(meta["title"]))
    ensures c.ticker.value == [] <==> !("ticker" in meta && Truthy(meta["ticker"]))
    ensures c.filingType.value == [] <==> !("filing_type" in meta && Truthy(meta["filing_type"]))
    ensures c.period.value == [] <==> !("period" in meta && Truthy(meta["period"]))
    ensures c.section.value == [] <==> !("section" in meta && Truthy(meta["section"]))
    // ... and otherwise the string form of the entry
    ensures "title" in meta && Truthy(meta["title"]) ==> c.docTitle == Some(PyStr(meta["title"]))
    ensures "ticker" in meta && Truthy(meta["ticker"]) ==> c.ticker == Some(PyStr(meta["ticker"]))
    ensures "filing_type" in meta && Truthy(meta["filing_type"]) ==> c.filingType == Some(PyStr(meta["filing_type"]))
    ensures "period" in meta && Truthy(meta["period"]) ==> c.period == Some(PyStr(meta["period"]))
    ensures "section" in meta && Truthy(meta["section"]) ==> c.section == Some(PyStr(meta["section"]))
    // page: absent when the entry is missing, falsy or reads as 0; otherwise its integer value
    ensures c.page.None? <==>
      !("page_start" in meta && Truthy(meta["page_start"])) || IntValue(meta["page_start"]) == 0
    ensures c.page.Some? ==> c.page.value != 0 && c.page.value == IntValue(meta["page_start"])
    // line numbers: copied as they are
    ensures c.lineStart.None? <==> "line_start" !in meta || meta["line_start"].Null?
    ensures c.lineStart.Some? ==> c.lineStart.value == IntValue(meta["line_start"])
    ensures c.lineEnd.None? <==> "line_end" !in meta || meta["line_end"].Null?
    ensures c.lineEnd.Some? ==> c.lineEnd.value == IntValue(meta["line_end"])
    // table id and source URL: None when missing or empty, otherwise their string value
    ensures c.tableId.None? <==> !("table_id" in meta && Truthy(meta["table_id"]))
    ensures c.tableId.Some? ==> c.tableId.value == PyStr(meta["table_id"]) && c.tableId.value != []
    ensures c.sourceUrl.None? <==> !("source_url" in meta && Truthy(meta["source_url"]))
    ensures c.sourceUrl.Some? ==> c.sourceUrl.value == PyStr(meta["source_url"]) && c.sourceUrl.value != []
  {
    Citation(
      docId := if "doc_id" in meta then PyStr(meta["doc_id"]) else "",
      docTitle := Some(StrOrEmpty(meta, "title")),
      ticker := Some(StrOrEmpty(meta, "ticker")),
      filingType := Some(StrOrEmpty(meta, "filing_type")),
      period := Some(StrOrEmpty(meta, "period")),
      section := Some(StrOrEmpty(meta, "section")),
      page := PageOf(meta),
      lineStart := OptionalInt(meta, "line_start"),
      lineEnd := OptionalInt(meta, "line_end"),
      tableId := StrOrNone(meta, "table_id"),
      sourceUrl := StrOrNone(meta, "source_url"))
  }

  /** `build_citations`: one citation per chunk, in order, each made from that chunk's own
      metadata. */
  method BuildCitations(chunks: seq<Chunk>) returns (citations: seq<Citation>)
    requires forall i :: 0 <= i < |chunks| ==> Readable(chunks[i].metadata)
    ensures |citations| == |chunks|
    ensures forall i :: 0 <= i < |chunks| ==> citations[i] == ToCitation(chunks[i].metadata)
  {
    citations := [];
    for n := 0 to |chunks|
      invariant |citations| == n
      invariant forall i :: 0 <= i < n ==> citations[i] == ToCitation(chunks[i].metadata)
    {
      var meta := chunks[n].metadata;
      citations := citations + [ToCitation(meta)];
    }
  }

  /** Python's `str(None)` leaks through `doc_id`: an explicit `None` entry becomes the text
      "None", unlike the other text fields, which become "". */
  lemma NullDocIdPrintsNone(meta: map<string, MetaVal>)
    requires Readable(meta)
    requires "doc_id" in meta && meta["doc_id"] == Null
    requires "title" in meta && meta["title"] == Null
    ensures ToCitation(meta).docId == "None"
    ensures ToCitation(meta).docTitle == Some("")
  {
  }

  /** A page numeral "0" is truthy as a string but reads as 0, so the citation has no page. */
  lemma ZeroPageNumeralHasNoPage(meta: map<string, MetaVal>)
    requires "page_start" in meta && meta["page_start"] == S("0")
    requires Readable(meta)
    ensures ToCitation(meta).page == None
  {
  }
}

=== FILE: document_model.dfy ===
/**
 * The shared records of the ingestion pipeline: a parsed Document made of Blocks, each Block
 * made of numbered Lines and, for tables, Cells; and the Chunk, the retrieval unit whose flat
 * metadata map travels through the vector store. Only the fields that the parser, retriever
 * and citation builder read or write are kept.
 */
module DocumentModel {
  import opened Wrappers

  /** One line of a block; `lineNumber` counts from 1 within the block. */
  datatype Line = Line(lineNumber: nat, text: string)

  /** One table cell at 0-based (`row`, `col`). */
  datatype TableCell = TableCell(row: nat, col: nat, text: string)

  datatype BlockType = Paragraph | Table {
    /** The letter that opens the block's id: `p_...` or `t_...`. */
    function IdPrefix(): char {
      match this
      case Paragraph => 'p'
      case Table => 't'
    }
  }

  /** A page-scoped unit of content. Paragraph blocks carry no cells. The section label
      that a later tagging pass may set is not part of this model. */
  datatype Block = Block(
    blockId: string,
    blockType: BlockType,
    pageNumber: nat,
    text: string,
    lines: seq<Line>,
    cells: seq<TableCell>)

  datatype DocumentMetadata = DocumentMetadata(
    docId: string,
    ticker: string,
    filingType: string,
    period: string,
    sourceUrl: Option<string>,
    title: Option<string>,
    localPath: string)

  datatype Document = Document(metadata: DocumentMetadata, blocks: seq<Block>)

  /** A value in a chunk's flat metadata map: a string, an integer, or `None`. */
  datatype MetaVal = S(str: string) | I(num: int) | Null

  /** A retrieval unit: its id, its embeddable text and its provenance metadata. */
  datatype Chunk = Chunk(chunkId: string, text: string, metadata: map<string, MetaVal>)
}

=== FILE: pdf_parser.dfy ===
/**
 * Turning the pages of a PDF filing into the Blocks of a Document
 * (backend/ingestion/parsers/pdf_parser.py).
 *
 * The PDF library is not modelled: a page is given as the text and the tables that the
 * library extracted from it. The three routines of the parser are imperative methods, each
 * proved equal to a specification function (ParagraphBlocks, TableBlocks, DocumentBlocks);
 * the provenance guarantees that citations rely on are lemmas about those functions.
 */
module PdfParser {
  import opened Wrappers
  import opened Strings
  import opened DocumentModel

  /** A table as the PDF library returns it: rows of cells, where a cell may be `None`. */
  type PdfTable = seq<seq<Option<string>>>

  /** One page: the text the library extracted from it and the tables it found on it. */
  datatype Page = Page(text: string, tables: seq<PdfTable>)

  // ---------------------------------------------------------------------------
  // Block ids
  // ---------------------------------------------------------------------------

  /** `f"p_{page_number}_{n}"` or `f"t_{page_number}_{n}"`. */
  function BlockId(kind: BlockType, pageNumber: nat, n: nat): string {
    [kind.IdPrefix()] + "_" + NatToString(pageNumber) + "_" + NatToString(n)
  }

  /** A block id determines its kind, its page and its running number. */
  lemma BlockIdInjective(k1: BlockType, p1: nat, n1: nat, k2: BlockType, p2: nat, n2: nat)
    requires BlockId(k1, p1, n1) == BlockId(k2, p2, n2)
    ensures k1 == k2 && p1 == p2 && n1 == n2
  {
    var x1, x2 := [k1.IdPrefix()] + "_" + NatToString(p1), [k2.IdPrefix()] + "_" + NatToString(p2);
    assert BlockId(k1, p1, n1) == x1 + ['_'] + NatToString(n1);
    assert BlockId(k2, p2, n2) == x2 + ['_'] + NatToString(n2);
    SplitAtLastSeparator(x1, NatToString(n1), x2, NatToString(n2), '_');
    SplitAtLastSeparator([k1.IdPrefix()], NatToString(p1), [k2.IdPrefix()], NatToString(p2), '_');
    ParseNatToString(n1);
    ParseNatToString(n2);
    ParseNatToString(p1);
    ParseNatToString(p2);
  }

  // ---------------------------------------------------------------------------
  // Specification of the blocks of one page
  // ---------------------------------------------------------------------------

  /** The lines of a paragraph block: the page text split into lines, each right-stripped,
      numbered from 1. */
  function ParagraphLines(text: string): seq<Line> {
    var pieces := SplitLines(text);
    seq(|pieces|, i requires 0 <= i < |pieces| => Line(i + 1, RStrip(pieces[i])))
  }

  /** At most one paragraph block per page, holding the raw page text; none for a blank page. */
  function ParagraphBlocks(text: string, start: nat, pageNumber: nat): seq<Block> {
    if IsBlank(text) then []
    else [Block(BlockId(Paragraph, pageNumber, start), Paragraph, pageNumber, text, ParagraphLines(text), [])]
  }

  /** `(cell or "").strip()`. */
  function CellText(cell: Option<string>): string {
    Strip(cell.GetOr(""))
  }

  /** The cells of row `r`, left to right. */
  function RowCells(row: seq<Option<string>>, r: nat): seq<TableCell> {
    seq(|row|, c requires 0 <= c < |row| => TableCell(r, c, CellText(row[c])))
  }

  /** All cells of a table, row by row. */
  function TableCells(table: PdfTable): seq<TableCell> {
    if table == [] then []
    else TableCells(table[..|table| - 1]) + RowCells(table[|table| - 1], |table| - 1)
  }

  lemma TableCellsStep(table: PdfTable, r: nat)
    requires r < |table|
    ensures TableCells(table[..r + 1]) == TableCells(table[..r]) + RowCells(table[r], r)
  {
    assert table[..r + 1][..r] == table[..r];
  }

  /** The cell texts of a row joined with `" | "`. */
  function RowText(row: seq<Option<string>>): string {
    Join(" | ", seq(|row|, c requires 0 <= c < |row| => CellText(row[c])))
  }

  /** One line per row of the table, numbered from 1. */
  function TableLines(table: PdfTable): seq<Line> {
    seq(|table|, r requires 0 <= r < |table| => Line(r + 1, RowText(table[r])))
  }

  lemma TableLinesStep(table: PdfTable, r: nat)
    requires r < |table|
    ensures TableLines(table[..r + 1]) == TableLines(table[..r]) + [Line(r + 1, RowText(table[r]))]
  {
  }

  function LineTexts(lines: seq<Line>): seq<string> {
    seq(|lines|, i requires 0 <= i < |lines| => lines[i].text)
  }

  /** The block of one table, whose id carries the running number `n`. */
  function TableBlock(table: PdfTable, n: nat, pageNumber: nat): Block {
    var lines := TableLines(table);
    Block(BlockId(Table, pageNumber, n), Table, pageNumber, Join("\n", LineTexts(lines)), lines, TableCells(table))
  }

  /** One block per table of the page, numbered consecutively from `start`. */
  function TableBlocks(tables: seq<PdfTable>, start: nat, pageNumber: nat): seq<Block> {
    seq(|tables|, j requires 0 <= j < |tables| => TableBlock(tables[j], start + j, pageNumber))
  }

  lemma TableBlocksStep(tables: seq<PdfTable>, t: nat, start: nat, pageNumber: nat)
    requires t < |tables|
    ensures TableBlocks(tables[..t + 1], start, pageNumber) ==
      TableBlocks(tables[..t], start, pageNumber) + [TableBlock(tables[t], start + t, pageNumber)]
  {
  }

  /** The blocks of one page: its paragraph block, if any, then its table blocks. */
  function PageBlocks(page: Page, start: nat, pageNumber: nat): seq<Block> {
    var paragraphs := ParagraphBlocks(page.text, start, pageNumber);
    paragraphs + TableBlocks(page.tables, start + |paragraphs|, pageNumber)
  }

  /** The blocks of a document: page after page (numbered from 1), each page's blocks
      numbered on from the count of blocks already emitted. */
  function DocumentBlocks(pages: seq<Page>): seq<Block> {
    if pages == [] then []
    else
      var earlier := DocumentBlocks(pages[..|pages| - 1]);
      earlier + PageBlocks(pages[|pages| - 1], |earlier|, |pages|)
  }

  /** The blocks of the first `n` pages are those of the first `n - 1` pages followed by the
      blocks of page `n`, numbered on from there. */
  lemma DocumentBlocksStep(pages: seq<Page>, n: nat)
    requires 0 < n <= |pages|
    ensures DocumentBlocks(pages[..n]) ==
      DocumentBlocks(pages[..n - 1]) + PageBlocks(pages[n - 1], |DocumentBlocks(pages[..n - 1])|, n)
  {
    assert pages[..n][..n - 1] == pages[..n - 1];
  }

  lemma PageBlocksSplit(page: Page, start: nat, pageNumber: nat, paragraphs: seq<Block>, tables: seq<Block>)
    requires paragraphs == ParagraphBlocks(page.text, start, pageNumber)
    requires tables == TableBlocks(page.tables, start + |paragraphs|, pageNumber)
    ensures PageBlocks(page, start, pageNumber) == paragraphs + tables
  {
  }

  lemma AppendAssociative<T>(a: seq<T>, b: seq<T>, c: seq<T>)
    ensures a + (b + c) == a + b + c
  {
  }

  /** Appending page `n`'s paragraph blocks and then its table blocks to the blocks of the
      first `n - 1` pages gives the blocks of the first `n` pages. */
  lemma DocumentBlocksPrefix(pages: seq<Page>, n: nat, earlier: seq<Block>, paragraphs: seq<Block>, tables: seq<Block>)
    requires 0 < n <= |pages|
    requires earlier == DocumentBlocks(pages[..n - 1])
    requires paragraphs == ParagraphBlocks(pages[n - 1].text, |earlier|, n)
    requires tables == TableBlocks(pages[n - 1].tables, |earlier| + |paragraphs|, n)
    ensures DocumentBlocks(pages[..n]) == earlier + paragraphs + tables
  {
    DocumentBlocksStep(pages, n);
    PageBlocksSplit(pages[n - 1], |earlier|, n, paragraphs, tables);
    AppendAssociative(earlier, paragraphs, tables);
  }

  // ---------------------------------------------------------------------------
  // The parser
  // ---------------------------------------------------------------------------

  /** `_extract_paragraph_blocks`. */
  method ExtractParagraphBlocks(page: Page, startingBlockId: nat, pageNumber: nat) returns (blocks: seq<Block>)
    ensures blocks == ParagraphBlocks(page.text, startingBlockId, pageNumber)
  {
    blocks := [];
    var text := page.text;
    if Strip(text) == [] {
      return;
    }
    var pieces := SplitLines(text);
    var linesObj: seq<Line> := [];
    for idx := 0 to |pieces|
      invariant |linesObj| == idx
      invariant forall i :: 0 <= i < idx ==> linesObj[i] == Line(i + 1, RStrip(pieces[i]))
    {
      linesObj := linesObj + [Line(idx + 1, RStrip(pieces[idx]))];
    }
    assert linesObj == ParagraphLines(text);
    var block := Block(BlockId(Paragraph, pageNumber, startingBlockId), Paragraph, pageNumber, text, linesObj, []);
    blocks := blocks + [block];
  }

  /** The inner loop of `_extract_table_blocks`: the trimmed cells of row `r` and their texts. */
  method ReadRow(row: seq<Option<string>>, r: nat) returns (cells: seq<TableCell>, rowTextItems: seq<string>)
    ensures cells == RowCells(row, r)
    ensures rowTextItems == seq(|row|, c requires 0 <= c < |row| => CellText(row[c]))
  {
    cells, rowTextItems := [], [];
    for c := 0 to |row|
      invariant |cells| == |rowTextItems| == c
      invariant forall i :: 0 <= i < c ==> cells[i] == TableCell(r, i, CellText(row[i]))
      invariant forall i :: 0 <= i < c ==> rowTextItems[i] == CellText(row[i])
    {
      var cellText := Strip(row[c].GetOr(""));
      cells := cells + [TableCell(r, c, cellText)];
      rowTextItems := rowTextItems + [cellText];
    }
  }

  /** The body of the table loop of `_extract_table_blocks`: the block of one table, with
      `line_num` counting the rows from 1. */
  method BuildTableBlock(table: PdfTable, currentId: nat, pageNumber: nat) returns (block: Block)
    ensures block == TableBlock(table, currentId, pageNumber)
  {
    var cells: seq<TableCell> := [];
    var textLines: seq<Line> := [];
    var lineNum := 1;
    for r := 0 to |table|
      invariant lineNum == r + 1
      invariant cells == TableCells(table[..r])
      invariant textLines == TableLines(table[..r])
    {
      var rowCells, rowTextItems := ReadRow(table[r], r);
      cells := cells + rowCells;
      var rowText := Join(" | ", rowTextItems);
      textLines := textLines + [Line(lineNum, rowText)];
      lineNum := lineNum + 1;
      TableCellsStep(table, r);
      TableLinesStep(table, r);
    }
    assert table[..|table|] == table;
    var text := Join("\n", LineTexts(textLines));
    block := Block(BlockId(Table, pageNumber, currentId), Table, pageNumber, text, textLines, cells);
  }

  /** `_extract_table_blocks`: one block per table, numbered on from `startingBlockId`. */
  method ExtractTableBlocks(page: Page, startingBlockId: nat, pageNumber: nat) returns (blocks: seq<Block>)
    ensures blocks == TableBlocks(page.tables, startingBlockId, pageNumber)
  {
    blocks := [];
    var tables := page.tables;
    var currentId := startingBlockId;
    for t := 0 to |tables|
      invariant currentId == startingBlockId + t
      invariant blocks == TableBlocks(tables[..t], startingBlockId, pageNumber)
    {
      var block := BuildTableBlock(tables[t], currentId, pageNumber);
      blocks := blocks + [block];
      currentId := currentId + 1;
      TableBlocksStep(tables, t, startingBlockId, pageNumber);
    }
    assert tables[..|tables|] == tables;
  }

  /** `parse_pdf_to_document`, with the pages given instead of the file they come from. */
  method ParsePdfToDocument(
    pages: seq<Page>, docId: string, ticker: string, filingType: string, period: string,
    sourceUrl: Option<string>, title: Option<string>, localPath: string)
    returns (doc: Document)
    ensures doc.blocks == DocumentBlocks(pages)
    ensures doc.metadata == DocumentMetadata(docId, ticker, filingType, period, sourceUrl, title, localPath)
  {
    var blocks: seq<Block> := [];
    for pageIndex := 1 to |pages| + 1
      invariant blocks == DocumentBlocks(pages[..pageIndex - 1])
    {
      blocks := ExtendWithPage(blocks, pages, pageIndex);
    }
    assert pages[..|pages|] == pages;
    doc := Document(DocumentMetadata(docId, ticker, filingType, period, sourceUrl, title, localPath), blocks);
  }

  /** One turn of the page loop of `parse_pdf_to_document`: page `pageIndex`'s paragraph
      blocks and then its table blocks extend the blocks of the pages before it, numbered on
      from the number of blocks so far. */
  method ExtendWithPage(blocks: seq<Block>, pages: seq<Page>, pageIndex: nat) returns (extended: seq<Block>)
    requires 0 < pageIndex <= |pages|
    requires blocks == DocumentBlocks(pages[..pageIndex - 1])
    ensures extended == DocumentBlocks(pages[..pageIndex])
  {
    var page := pages[pageIndex - 1];
    var paragraphBlocks := ExtractParagraphBlocks(page, |blocks|, pageIndex);
    extended := blocks + paragraphBlocks;
    var tableBlocks := ExtractTableBlocks(page, |extended|, pageIndex);
    extended := extended + tableBlocks;
    DocumentBlocksPrefix(pages, pageIndex, blocks, paragraphBlocks, tableBlocks);
  }
}

/**
 * What the blocks produced by the parser guarantee: the provenance that citations rely on.
 */
module PdfProvenance {
  import opened Wrappers
  import opened Strings
  import opened DocumentModel
  import opened PdfParser

  // ---------------------------------------------------------------------------
  // Paragraph blocks
  // ---------------------------------------------------------------------------

  /** Paragraph lines are numbered 1, 2, ... with one line per piece of the page text; a line
      holds no line break and no trailing whitespace. */
  lemma ParagraphLinesClean(text: string)
    ensures |ParagraphLines(text)| == |SplitLines(text)|
    ensures forall i :: 0 <= i < |ParagraphLines(text)| ==>
      var line := ParagraphLines(text)[i];
      line.lineNumber == i + 1 && '\n' !in line.text &&
      (line.text == [] || !IsSpace(line.text[|line.text| - 1]))
  {
    var pieces := SplitLines(text);
    forall i | 0 <= i < |pieces|
      ensures '\n' !in RStrip(pieces[i])
      ensures RStrip(pieces[i]) == [] || !IsSpace(RStrip(pieces[i])[|RStrip(pieces[i])| - 1])
    {
      RStripSpec(pieces[i]);
    }
  }

  /** When no line of the page text carries trailing whitespace, the paragraph lines re-joined
      with '\n' give back the page text, up to its final line break. */
  lemma ParagraphLinesRejoin(text: string)
    requires forall i :: 0 <= i < |SplitLines(text)| ==> RStrip(SplitLines(text)[i]) == SplitLines(text)[i]
    ensures Join("\n", LineTexts(ParagraphLines(text))) +
      (if text != [] && text[|text| - 1] == '\n' then "\n" else "") == text
  {
    assert LineTexts(ParagraphLines(text)) == SplitLines(text);
    SplitLinesRoundTrip(text);
  }

  /** The paragraph block keeps the raw page text while its lines are right-stripped, so the
      lines of "x \ny" re-join to "x\ny", not to the block's text. */
  lemma ParagraphTextIsRaw()
    ensures |ParagraphBlocks("x \ny", 0, 1)| == 1
    ensures var block := ParagraphBlocks("x \ny", 0, 1)[0];
      block.text == "x \ny" && Join("\n", LineTexts(block.lines)) == "x\ny"
  {
    var text := "x \ny";
    assert text == "x " + ['\n'] + "y";
    SplitOnAppend("x ", "y", '\n');
    SplitOnNoSeparator("y", '\n');
    assert SplitLines(text) == ["x ", "y"];
    assert RStrip("x ") == "x" by { assert "x "[..1] == "x"; }
    assert !IsBlank(text) by { assert !IsSpace(text[0]); }
  }

  // ---------------------------------------------------------------------------
  // Table blocks
  // ---------------------------------------------------------------------------

  /** The cell text is empty for a missing cell; otherwise it is the cell with only whitespace
      cut from either end, which is empty exactly when the cell is blank and neither starts nor
      ends with whitespace. */
  lemma CellTextSpec(cell: Option<string>)
    ensures cell.None? ==> CellText(cell) == ""
    ensures cell.Some? ==> exists a: nat, b: nat :: BlankOutside(cell.value, a, b) && CellText(cell) == cell.value[a..b]
    ensures cell.Some? ==> (CellText(cell) == "" <==> IsBlank(cell.value))
    ensures CellText(cell) == "" || (!IsSpace(CellText(cell)[0]) && !IsSpace(CellText(cell)[|CellText(cell)| - 1]))
  {
    StripSpec(cell.GetOr(""));
  }

  /** The number of cells in the rows before row `r`: where row `r` starts in row-major order. */
  function RowOffset(table: PdfTable, r: nat): nat
    requires r <= |table|
  {
    if r == 0 then 0 else RowOffset(table, r - 1) + |table[r - 1]|
  }

  lemma {:induction false} RowOffsetPrefix(table: PdfTable, m: nat, r: nat)
    requires r <= m <= |table|
    ensures RowOffset(table[..m], r) == RowOffset(table, r)
  {
    if r > 0 {
      RowOffsetPrefix(table, m, r - 1);
    }
  }

  /** Where cell (r, c) sits in row-major order. */
  function CellPosition(table: PdfTable, r: nat, c: nat): nat
    requires r < |table|
  {
    RowOffset(table, r) + c
  }

  /** A table block holds exactly one cell per (row, column) of the table, in row-major order:
      cell (r, c) sits at position CellPosition(table, r, c) and carries the trimmed cell text,
      and there is no other cell. */
  lemma {:induction false} TableCellsRowMajor(table: PdfTable)
    ensures |TableCells(table)| == RowOffset(table, |table|)
    ensures forall r, c :: 0 <= r < |table| && 0 <= c < |table[r]| ==>
      CellPosition(table, r, c) < |TableCells(table)| &&
      TableCells(table)[CellPosition(table, r, c)] == TableCell(r, c, CellText(table[r][c]))
    ensures forall k :: 0 <= k < |TableCells(table)| ==>
      var cell := TableCells(table)[k];
      cell.row < |table| && cell.col < |table[cell.row]| && k == CellPosition(table, cell.row, cell.col)
  {
    if table != [] {
      var n := |table| - 1;
      var front := table[..n];
      TableCellsRowMajor(front);
      forall r | 0 <= r <= n
        ensures RowOffset(front, r) == RowOffset(table, r)
      {
        RowOffsetPrefix(table, n, r);
      }
      var earlier := TableCells(front);
      forall r, c | 0 <= r < n && 0 <= c < |table[r]|
        ensures CellPosition(table, r, c) < |earlier| && earlier[CellPosition(table, r, c)] == TableCell(r, c, CellText(table[r][c]))
      {
        assert front[r] == table[r] && CellPosition(front, r, c) == CellPosition(table, r, c);
      }
      forall k | 0 <= k < |earlier|
        ensures earlier[k].row < n && earlier[k].col < |table[earlier[k].row]|
        ensures k == CellPosition(table, earlier[k].row, earlier[k].col)
      {
        assert front[earlier[k].row] == table[earlier[k].row];
      }
      RowMajorStep(table, earlier);
    }
  }

  /** The induction step of TableCellsRowMajor: the cells of all rows but the last, followed
      by the cells of the last row. */
  lemma RowMajorStep(table: PdfTable, earlier: seq<TableCell>)
    requires |table| > 0
    requires |earlier| == RowOffset(table, |table| - 1)
    requires forall r, c :: 0 <= r < |table| - 1 && 0 <= c < |table[r]| ==>
      CellPosition(table, r, c) < |earlier| && earlier[CellPosition(table, r, c)] == TableCell(r, c, CellText(table[r][c]))
    requires forall k :: 0 <= k < |earlier| ==>
      earlier[k].row < |table| - 1 && earlier[k].col < |table[earlier[k].row]| &&
      k == CellPosition(table, earlier[k].row, earlier[k].col)
    ensures var cells := earlier + RowCells(table[|table| - 1], |table| - 1);
      |cells| == RowOffset(table, |table|) &&
      (forall r, c :: 0 <= r < |table| && 0 <= c < |table[r]| ==>
        CellPosition(table, r, c) < |cells| && cells[CellPosition(table, r, c)] == TableCell(r, c, CellText(table[r][c]))) &&
      (forall k :: 0 <= k < |cells| ==>
        cells[k].row < |table| && cells[k].col < |table[cells[k].row]| && k == CellPosition(table, cells[k].row, cells[k].col))
  {
    var n := |table| - 1;
    var last := RowCells(table[n], n);
    var cells := earlier + last;
    assert |last| == |table[n]|;
    assert RowOffset(table, |table|) == RowOffset(table, n) + |table[n]|;
    forall r, c | 0 <= r < |table| && 0 <= c < |table[r]|
      ensures CellPosition(table, r, c) < |cells| && cells[CellPosition(table, r, c)] == TableCell(r, c, CellText(table[r][c]))
    {
      if r < n {
        assert r < |table| - 1 && c < |table[r]|;
        assert CellPosition(table, r, c) < |earlier| && earlier[CellPosition(table, r, c)] == TableCell(r, c, CellText(table[r][c]));
        assert cells[CellPosition(table, r, c)] == earlier[CellPosition(table, r, c)];
      } else {
        assert r == n && CellPosition(table, r, c) == |earlier| + c;
        assert cells[|earlier| + c] == last[c];
      }
    }
    forall k | 0 <= k < |cells|
      ensures cells[k].row < |table| && cells[k].col < |table[cells[k].row]| && k == CellPosition(table, cells[k].row, cells[k].col)
    {
      if k < |earlier| {
        assert cells[k] == earlier[k];
      } else {
        assert cells[k] == last[k - |earlier|];
      }
    }
  }

  /** The lines of a table block agree with its cells: line r + 1 is the texts of the cells
      of row r, read from the block's cells in column order, joined with " | ". */
  lemma TableLinesMatchCells(table: PdfTable, n: nat, pageNumber: nat)
    ensures var block := TableBlock(table, n, pageNumber);
      |block.lines| == |table| &&
      forall r :: 0 <= r < |table| ==>
        (forall c :: 0 <= c < |table[r]| ==> CellPosition(table, r, c) < |block.cells|) &&
        block.lines[r] == Line(r + 1, Join(" | ", seq(|table[r]|, c requires 0 <= c < |table[r]| && CellPosition(table, r, c) < |block.cells| =>
          block.cells[CellPosition(table, r, c)].text)))
  {
    var block := TableBlock(table, n, pageNumber);
    TableCellsRowMajor(table);
    forall r | 0 <= r < |table|
      ensures block.lines[r] == Line(r + 1, Join(" | ", seq(|table[r]|, c requires 0 <= c < |table[r]| && CellPosition(table, r, c) < |block.cells| =>
          block.cells[CellPosition(table, r, c)].text)))
    {
      TableLineMatchesRow(table, n, pageNumber, r);
    }
  }

  /** Line r + 1 of a table block is the texts of row r's cells, read from the block's cells. */
  lemma TableLineMatchesRow(table: PdfTable, n: nat, pageNumber: nat, r: nat)
    requires r < |table|
    ensures var block := TableBlock(table, n, pageNumber);
      r < |block.lines| &&
      (forall c :: 0 <= c < |table[r]| ==> CellPosition(table, r, c) < |block.cells|) &&
      block.lines[r] == Line(r + 1, Join(" | ", seq(|table[r]|, c requires 0 <= c < |table[r]| && CellPosition(table, r, c) < |block.cells| =>
        block.cells[CellPosition(table, r, c)].text)))
  {
    var block := TableBlock(table, n, pageNumber);
    TableCellsRowMajor(table);
    var fromCells := seq(|table[r]|, c requires 0 <= c < |table[r]| && CellPosition(table, r, c) < |block.cells| =>
      block.cells[CellPosition(table, r, c)].text);
    assert fromCells == seq(|table[r]|, c requires 0 <= c < |table[r]| => CellText(table[r][c]));
  }

  /** When no cell text holds a line break, splitting a non-empty table's text at '\n' gives
      back its line texts, one per row and numbered from 1. */
  lemma TableTextSplitsIntoLines(table: PdfTable, n: nat, pageNumber: nat)
    requires |table| >= 1
    requires forall r, c :: 0 <= r < |table| && 0 <= c < |table[r]| ==> '\n' !in CellText(table[r][c])
    ensures var block := TableBlock(table, n, pageNumber);
      |block.lines| == |table| &&
      (forall r :: 0 <= r < |table| ==> block.lines[r].lineNumber == r + 1) &&
      SplitOn(block.text, '\n') == LineTexts(block.lines)
  {
    var texts := LineTexts(TableLines(table));
    forall r | 0 <= r < |table|
      ensures '\n' !in texts[r]
    {
      var items := seq(|table[r]|, c requires 0 <= c < |table[r]| => CellText(table[r][c]));
      JoinExcludes(" | ", items, '\n');
    }
    SplitOnJoin(texts, '\n');
    assert "\n" == ['\n'];
  }

  /** A table without rows still yields a block, with empty text, no lines and no cells. */
  lemma EmptyTableBlock(n: nat, pageNumber: nat)
    ensures var block := TableBlock([], n, pageNumber);
      block.blockId == BlockId(Table, pageNumber, n) && block.blockType == Table &&
      block.text == "" && block.lines == [] && block.cells == []
  {
  }

  // ---------------------------------------------------------------------------
  // The blocks of a page and of a document
  // ---------------------------------------------------------------------------

  /** The block's id carries its own kind and page and the running number `n`. */
  predicate NumberedAs(block: Block, n: nat) {
    block.blockId == BlockId(block.blockType, block.pageNumber, n)
  }

  /** A paragraph block holds the text of its page, which is not blank, and the lines of that text. */
  predicate ParagraphOf(block: Block, page: Page) {
    block.blockType == Paragraph ==>
      block.text == page.text && !IsBlank(page.text) && block.lines == ParagraphLines(page.text) && block.cells == []
  }

  /** One block for a non-blank text and one per table. */
  function PageBlockCount(page: Page): nat {
    (if IsBlank(page.text) then 0 else 1) + |page.tables|
  }

  function TotalBlockCount(pages: seq<Page>): nat {
    if pages == [] then 0 else TotalBlockCount(pages[..|pages| - 1]) + PageBlockCount(pages[|pages| - 1])
  }

  /** The blocks of a page: as many as PageBlockCount, numbered on from `start`, all on the
      page, only the first one possibly a paragraph, which then holds the page text. */
  lemma PageBlocksShape(page: Page, start: nat, pageNumber: nat)
    ensures |PageBlocks(page, start, pageNumber)| == PageBlockCount(page)
    ensures forall j :: 0 <= j < |PageBlocks(page, start, pageNumber)| ==>
      PageBlockFacts(PageBlocks(page, start, pageNumber)[j], j, start, page, pageNumber)
  {
    var paragraphs := ParagraphBlocks(page.text, start, pageNumber);
    var tables := TableBlocks(page.tables, start + |paragraphs|, pageNumber);
    var blocks := paragraphs + tables;
    forall j | 0 <= j < |blocks|
      ensures PageBlockFacts(blocks[j], j, start, page, pageNumber)
    {
      if j >= |paragraphs| {
        assert blocks[j] == tables[j - |paragraphs|];
      }
    }
  }

  /** Block `j` of a page numbered on from `start`. */
  predicate PageBlockFacts(block: Block, j: nat, start: nat, page: Page, pageNumber: nat) {
    NumberedAs(block, start + j) && block.pageNumber == pageNumber &&
    (j > 0 ==> block.blockType == Table) && ParagraphOf(block, page)
  }

  /** Block `i` of a document with pages `pages`. */
  predicate DocumentBlockFacts(block: Block, i: nat, pages: seq<Page>) {
    NumberedAs(block, i) && 1 <= block.pageNumber <= |pages| && ParagraphOf(block, pages[block.pageNumber - 1])
  }

  /** The induction step of DocumentBlockProvenance, on plain sequences. */
  lemma ProvenanceStep(pages: seq<Page>, earlier: seq<Block>, page: seq<Block>)
    requires |pages| > 0
    requires forall i :: 0 <= i < |earlier| ==> DocumentBlockFacts(earlier[i], i, pages[..|pages| - 1])
    requires forall j :: 0 <= j < |page| ==> PageBlockFacts(page[j], j, |earlier|, pages[|pages| - 1], |pages|)
    ensures forall i :: 0 <= i < |earlier + page| ==> DocumentBlockFacts((earlier + page)[i], i, pages)
  {
    var front := pages[..|pages| - 1];
    forall i | 0 <= i < |earlier + page|
      ensures DocumentBlockFacts((earlier + page)[i], i, pages)
    {
      if i < |earlier| {
        assert (earlier + page)[i] == earlier[i];
        assert front[earlier[i].pageNumber - 1] == pages[earlier[i].pageNumber - 1];
      } else {
        assert (earlier + page)[i] == page[i - |earlier|];
      }
    }
  }

  /** The document has one block per non-blank page and one per table. */
  lemma {:induction false} DocumentBlockCount(pages: seq<Page>)
    ensures |DocumentBlocks(pages)| == TotalBlockCount(pages)
  {
    if pages != [] {
      var n := |pages|;
      DocumentBlockCount(pages[..n - 1]);
      PageBlocksShape(pages[n - 1], |DocumentBlocks(pages[..n - 1])|, n);
    }
  }

  /** Block `i` of the document has id suffix `i` (the running count is document-wide), lies
      on a page in 1..|pages|, and, if it is a paragraph, holds that page's text and lines. */
  lemma {:induction false} DocumentBlockProvenance(pages: seq<Page>)
    ensures forall i :: 0 <= i < |DocumentBlocks(pages)| ==> DocumentBlockFacts(DocumentBlocks(pages)[i], i, pages)
  {
    if pages != [] {
      var n := |pages|;
      var earlier := DocumentBlocks(pages[..n - 1]);
      DocumentBlockProvenance(pages[..n - 1]);
      PageBlocksShape(pages[n - 1], |earlier|, n);
      ProvenanceStep(pages, earlier, PageBlocks(pages[n - 1], |earlier|, n));
    }
  }

  /** Block ids are unique within a document. */
  lemma DocumentBlockIdsUnique(pages: seq<Page>)
    ensures forall i, j :: 0 <= i < j < |DocumentBlocks(pages)| ==>
      DocumentBlocks(pages)[i].blockId != DocumentBlocks(pages)[j].blockId
  {
    var blocks := DocumentBlocks(pages);
    DocumentBlockProvenance(pages);
    forall i, j | 0 <= i < j < |blocks|
      ensures blocks[i].blockId != blocks[j].blockId
    {
      if blocks[i].blockId == blocks[j].blockId {
        BlockIdInjective(blocks[i].blockType, blocks[i].pageNumber, i, blocks[j].blockType, blocks[j].pageNumber, j);
      }
    }
  }

  /** Block `i` comes before block `j` in page order, a page's paragraph before its tables. */
  predicate InPageOrder(first: Block, second: Block) {
    first.pageNumber < second.pageNumber ||
    (first.pageNumber == second.pageNumber && second.blockType == Table)
  }

  /** The induction step of DocumentPageOrder, on plain sequences. */
  lemma OrderStep(earlier: seq<Block>, page: seq<Block>, n: nat)
    requires forall i, j :: 0 <= i < j < |earlier| ==> InPageOrder(earlier[i], earlier[j])
    requires forall i :: 0 <= i < |earlier| ==> earlier[i].pageNumber < n
    requires forall j :: 0 <= j < |page| ==> page[j].pageNumber == n && (j > 0 ==> page[j].blockType == Table)
    ensures forall i, j :: 0 <= i < j < |earlier + page| ==> InPageOrder((earlier + page)[i], (earlier + page)[j])
  {
    var blocks := earlier + page;
    forall i, j | 0 <= i < j < |blocks|
      ensures InPageOrder(blocks[i], blocks[j])
    {
      if j < |earlier| {
        assert blocks[i] == earlier[i] && blocks[j] == earlier[j];
      } else if i < |earlier| {
        assert blocks[i] == earlier[i] && blocks[j] == page[j - |earlier|];
      } else {
        assert blocks[i] == page[i - |earlier|] && blocks[j] == page[j - |earlier|];
      }
    }
  }

  /** Blocks appear in page order, and within a page the paragraph block comes before the
      table blocks. */
  lemma {:induction false} DocumentPageOrder(pages: seq<Page>)
    ensures forall i, j :: 0 <= i < j < |DocumentBlocks(pages)| ==>
      InPageOrder(DocumentBlocks(pages)[i], DocumentBlocks(pages)[j])
  {
    if pages != [] {
      var n := |pages|;
      var earlier := DocumentBlocks(pages[..n - 1]);
      DocumentPageOrder(pages[..n - 1]);
      DocumentBlockProvenance(pages[..n - 1]);
      PageBlocksShape(pages[n - 1], |earlier|, n);
      OrderStep(earlier, PageBlocks(pages[n - 1], |earlier|, n), n);
    }
  }

  /** The block counter runs across the whole document: the paragraph of the second page of
      a two-page document whose pages hold text and no tables is "p_2_1", not "p_2_0". */
  lemma DocumentWideCounter()
    ensures |DocumentBlocks([Page("a", []), Page("b", [])])| == 2
    ensures DocumentBlocks([Page("a", []), Page("b", [])])[1].blockId == "p_2_1"
  {
    var pages := [Page("a", []), Page("b", [])];
    DocumentBlockCount(pages);
    DocumentBlockProvenance(pages);
    DocumentPageOrder(pages);
    assert !IsBlank("a") by { assert !IsSpace("a"[0]); }
    assert !IsBlank("b") by { assert !IsSpace("b"[0]); }
    assert pages[..1][..0] == [] && pages[..2] == pages;
    assert TotalBlockCount(pages) == 2;
    var block := DocumentBlocks(pages)[1];
    assert block.pageNumber == 2;
    assert NatToString(2) == "2" && NatToString(1) == "1";
  }
}

=== FILE: query_parser.dfy ===
/**
 * Entity extraction for a user question (backend/app/services/query_parser.py): the current
 * fiscal quarter, the `CURRENT_QUARTER` placeholder, the regular-expression fallback for
 * tickers and periods, locating the JSON object in the model's reply, and the merge and
 * clarification decision of `QueryParser.parse`.
 *
 * The language model, `json.loads` and the clock are not modelled: the reply text, a
 * decoding function and the current month and year are parameters. The three regular
 * expressions are modelled by the scan the regular-expression engine performs, written out
 * position by position.
 */
module QueryParser {
  import opened Wrappers
  import opened Strings

  // ---------------------------------------------------------------------------
  // Constants
  // ---------------------------------------------------------------------------

  const DEFAULT_CLARIFICATION: string := "Please specify the company ticker and fiscal period (e.g., AMZN, Q3-2025)."
  const PARSE_FAILURE_MESSAGE: string := "I couldn't understand your query. Please specify the company ticker and time period."
  const CURRENT_QUARTER_PLACEHOLDER: string := "CURRENT_QUARTER"

  /** Common words that the ticker pattern matches and the fallback skips. */
  const STOP_WORDS: set<string> := {"THE", "AND", "FOR", "WITH", "THIS", "THAT"}

  // ---------------------------------------------------------------------------
  // Quarters
  // ---------------------------------------------------------------------------

  /** `(month - 1) // 3 + 1`: the calendar quarter of a month, i.e. the ceiling of month / 3. */
  function Quarter(month: nat): (q: nat)
    requires 1 <= month <= 12
    ensures 1 <= q <= 4
    ensures 3 * q - 2 <= month <= 3 * q
  {
    (month - 1) / 3 + 1
  }

  /** `_get_current_quarter`, with the clock's month and year given: `f"Q{quarter}-{year}"`.
      The quarter digit and the year can be read back from the text. */
  function CurrentQuarter(month: nat, year: nat): (r: string)
    requires 1 <= month <= 12
    ensures |r| >= 4 && r[0] == 'Q' && r[1] == DigitChar(Quarter(month)) && r[2] == '-'
    ensures IsNumeral(r[3..]) && ParseNat(r[3..]) == year
  {
    var digit, y := NatToString(Quarter(month)), NatToString(year);
    assert digit == [DigitChar(Quarter(month))];
    var r := "Q" + digit + "-" + y;
    assert r == ['Q', DigitChar(Quarter(month)), '-'] + y;
    ParseNatToString(year);
    r
  }

  /** `_resolve_relative_period`: only the exact placeholder is replaced, so the placeholder
      never survives resolution and a missing period stays missing. */
  function ResolveRelativePeriod(period: Option<string>, month: nat, year: nat): (r: Option<string>)
    requires 1 <= month <= 12
    ensures r != Some(CURRENT_QUARTER_PLACEHOLDER)
    ensures r.Some? <==> period.Some?
    ensures period == Some(CURRENT_QUARTER_PLACEHOLDER) ==>
      r.Some? && |r.value| >= 4 && r.value[..3] == ['Q', DigitChar(Quarter(month)), '-'] &&
      IsNumeral(r.value[3..]) && ParseNat(r.value[3..]) == year
  {
    if period == Some(CURRENT_QUARTER_PLACEHOLDER) then Some(CurrentQuarter(month, year)) else period
  }

  /** Resolution is idempotent and leaves every value other than the placeholder alone; for
      a four-digit year a resolved placeholder is a normal period naming the month's
      quarter. */
  lemma ResolveRelativePeriodSpec(period: Option<string>, month: nat, year: nat)
    requires 1 <= month <= 12
    ensures ResolveRelativePeriod(ResolveRelativePeriod(period, month, year), month, year) ==
      ResolveRelativePeriod(period, month, year)
    ensures period != Some(CURRENT_QUARTER_PLACEHOLDER) ==> ResolveRelativePeriod(period, month, year) == period
    ensures period == Some(CURRENT_QUARTER_PLACEHOLDER) ==>
      ResolveRelativePeriod(period, month, year) == Some(CurrentQuarter(month, year))
    ensures period == Some(CURRENT_QUARTER_PLACEHOLDER) && 1000 <= year <= 9999 ==>
      var resolved := ResolveRelativePeriod(period, month, year);
      resolved.Some? && IsNormalPeriod(resolved.value) && resolved.value[1] == DigitChar(Quarter(month)) &&
      resolved.value[3..] == NatToString(year)
  {
    if 1000 <= year <= 9999 {
      CurrentQuarterIsNormal(month, year);
    }
  }

  /** A period in the normal form "Q#-YYYY" with # in 1..4. */
  predicate IsNormalPeriod(p: string) {
    |p| == 7 && p[0] == 'Q' && '1' <= p[1] <= '4' && p[2] == '-' &&
    IsDigit(p[3]) && IsDigit(p[4]) && IsDigit(p[5]) && IsDigit(p[6])
  }

  /** For a four-digit year the current quarter is a normal period naming the month's quarter. */
  lemma CurrentQuarterIsNormal(month: nat, year: nat)
    requires 1 <= month <= 12 && 1000 <= year <= 9999
    ensures IsNormalPeriod(CurrentQuarter(month, year))
    ensures CurrentQuarter(month, year)[1] == DigitChar(Quarter(month))
    ensures CurrentQuarter(month, year)[3..] == NatToString(year)
  {
    FourDigitNumeral(year);
    var y := NatToString(year);
    assert CurrentQuarter(month, year) == ['Q', DigitChar(Quarter(month)), '-'] + y;
  }

  // ---------------------------------------------------------------------------
  // The ticker pattern `\b([A-Z]{1,5})(?=\b)`, applied to the upper-cased question
  // ---------------------------------------------------------------------------

  predicate IsUpperLetter(c: char) {
    'A' <= c <= 'Z'
  }

  /** `\w` within ASCII. */
  predicate IsWordChar(c: char) {
    IsUpperLetter(c) || ('a' <= c <= 'z') || IsDigit(c) || c == '_'
  }

  /** `\b` at position `p`: exactly one of the characters around `p` is a word character. */
  predicate RegexBoundary(s: string, p: nat) {
    (0 < p <= |s| && IsWordChar(s[p - 1])) != (p < |s| && IsWordChar(s[p]))
  }

  /** `s[i..i + len]` is made of upper-case letters. */
  predicate UpperRun(s: string, i: nat, len: nat) {
    forall k :: i <= k < i + len && k < |s| ==> IsUpperLetter(s[k])
  }

  /** `[A-Z]{1,5}(?=\b)` from position `i`, trying the lengths `len`, `len - 1`, ..., 1 in turn,
      as the greedy quantifier backtracks. */
  function TickerAttempt(s: string, i: nat, len: nat): (r: Option<nat>)
    ensures r.Some? ==> 1 <= r.value <= len && i + r.value <= |s|
  {
    if len == 0 then None
    else if i + len <= |s| && UpperRun(s, i, len) && RegexBoundary(s, i + len)
    then Some(len)
    else TickerAttempt(s, i, len - 1)
  }

  /** The length of the ticker match starting at `i`, if the pattern matches there. */
  function TickerMatchAt(s: string, i: nat): (r: Option<nat>)
    ensures r.Some? ==> 1 <= r.value <= 5 && i + r.value <= |s|
  {
    if RegexBoundary(s, i) then TickerAttempt(s, i, 5) else None
  }

  /** `findall` from position `i`: after a match the scan resumes at its end, after a failed
      attempt at the next position, so there are never more matches than characters left. */
  function FindAllTickers(s: string, i: nat): (r: seq<string>)
    ensures i <= |s| ==> |r| <= |s| - i
    decreases |s| - i
  {
    if i >= |s| then []
    else match TickerMatchAt(s, i)
      case Some(len) => [s[i..i + len]] + FindAllTickers(s, i + len)
      case None => FindAllTickers(s, i + 1)
  }

  /** A whole word of 1 to 5 upper-case letters sits at `i..i + len`: no word character
      touches it on either side. */
  predicate IsTickerWordAt(s: string, i: nat, len: nat) {
    1 <= len <= 5 && i + len <= |s| &&
    UpperRun(s, i, len) &&
    (i == 0 || !IsWordChar(s[i - 1])) &&
    (i + len == |s| || !IsWordChar(s[i + len]))
  }

  /** `t` is one of the whole ticker-shaped words of `s`. */
  predicate IsTickerWordOf(s: string, t: string) {
    exists j :: 0 <= j <= |s| && IsTickerWordAt(s, j, |t|) && s[j..j + |t|] == t
  }

  lemma {:induction false} TickerAttemptSpec(s: string, i: nat, len: nat)
    requires len <= 5
    requires i == 0 || (i <= |s| && !IsWordChar(s[i - 1]))
    ensures TickerAttempt(s, i, len).Some? ==>
      TickerAttempt(s, i, len).value <= len && IsTickerWordAt(s, i, TickerAttempt(s, i, len).value)
    ensures TickerAttempt(s, i, len).None? ==> forall l :: 1 <= l <= len ==> !IsTickerWordAt(s, i, l)
  {
    if len > 0 {
      TickerAttemptSpec(s, i, len - 1);
      if TickerAttempt(s, i, len).None? {
        forall l | 1 <= l <= len
          ensures !IsTickerWordAt(s, i, l)
        {
          if l == len && i + len <= |s| {
            assert IsUpperLetter(s[i + len - 1]) ==> (IsTickerWordAt(s, i, l) ==> RegexBoundary(s, i + len));
          }
        }
      } else if TickerAttempt(s, i, len).value == len {
        assert IsUpperLetter(s[i + len - 1]);
      }
    }
  }

  /** The pattern matches at `i` with length `len` exactly when a whole ticker-shaped word of
      length `len` starts at `i`. */
  lemma TickerMatchAtSpec(s: string, i: nat, len: nat)
    requires i < |s|
    ensures TickerMatchAt(s, i) == Some(len) <==> IsTickerWordAt(s, i, len)
  {
    if IsTickerWordAt(s, i, len) {
      assert IsWordChar(s[i]);
      assert RegexBoundary(s, i);
      TickerAttemptSpec(s, i, 5);
      var l := TickerAttempt(s, i, 5).value;
      if l != len {
        TickerWordLengthUnique(s, i, l, len);
      }
    }
    if TickerMatchAt(s, i) == Some(len) {
      assert RegexBoundary(s, i);
      if i > 0 && i <= |s| && IsWordChar(s[i - 1]) {
        // the boundary before `i` then needs a non-word character at `i`
        assert !IsWordChar(s[i]);
        TickerAttemptNeedsLetter(s, i, 5);
      }
      TickerAttemptSpec(s, i, 5);
    }
  }

  /** A match attempt at a position holding no upper-case letter fails. */
  lemma {:induction false} TickerAttemptNeedsLetter(s: string, i: nat, len: nat)
    requires i < |s| && !IsUpperLetter(s[i])
    ensures TickerAttempt(s, i, len).None?
  {
    if len > 0 {
      TickerAttemptNeedsLetter(s, i, len - 1);
    }
  }

  /** At most one whole word starts at a position. */
  lemma TickerWordLengthUnique(s: string, i: nat, l1: nat, l2: nat)
    requires IsTickerWordAt(s, i, l1) && IsTickerWordAt(s, i, l2)
    ensures l1 == l2
  {
  }

  /** One step of the scan: a match is collected and skipped, a failed attempt moves on by one. */
  lemma FindAllTickersUnfold(s: string, i: nat)
    requires i < |s|
    ensures TickerMatchAt(s, i).None? ==> FindAllTickers(s, i) == FindAllTickers(s, i + 1)
    ensures TickerMatchAt(s, i).Some? ==> var l := TickerMatchAt(s, i).value;
      FindAllTickers(s, i) == [s[i..i + l]] + FindAllTickers(s, i + l)
  {
  }

  /** A whole word that starts after another one starts after its end. */
  lemma TickerWordsApart(s: string, i: nat, l: nat, j: nat, len: nat)
    requires i < j && IsTickerWordAt(s, i, l) && IsTickerWordAt(s, j, len)
    ensures i + l <= j
  {
  }

  /** One step of the scan, for the collected strings and the match positions together. */
  lemma ScanStep(s: string, i: nat)
    requires i < |s|
    ensures TickerMatchAt(s, i).None? ==>
      FindAllTickers(s, i) == FindAllTickers(s, i + 1) && MatchPositions(s, i) == MatchPositions(s, i + 1)
    ensures TickerMatchAt(s, i).Some? ==>
      var l := TickerMatchAt(s, i).value;
      FindAllTickers(s, i) == [s[i..i + l]] + FindAllTickers(s, i + l) &&
      MatchPositions(s, i) == [i] + MatchPositions(s, i + l) && WordAt(s, s[i..i + l], i)
  {
    ScanAdvance(s, i);
    if TickerMatchAt(s, i).Some? {
      TickerMatchAtSpec(s, i, TickerMatchAt(s, i).value);
    }
  }

  /** Where the scan resumes: after a match, or one position on. */
  lemma ScanAdvance(s: string, i: nat)
    requires i < |s|
    ensures TickerMatchAt(s, i).None? ==>
      FindAllTickers(s, i) == FindAllTickers(s, i + 1) && MatchPositions(s, i) == MatchPositions(s, i + 1)
    ensures TickerMatchAt(s, i).Some? ==>
      var l := TickerMatchAt(s, i).value;
      FindAllTickers(s, i) == [s[i..i + l]] + FindAllTickers(s, i + l) &&
      MatchPositions(s, i) == [i] + MatchPositions(s, i + l)
  {
    FindAllTickersUnfold(s, i);
  }

  /** Every string the scan from `i` collects is a whole ticker-shaped word of `s` starting at
      or after `i`. */
  lemma {:induction false} FindAllTickersSound(s: string, i: nat)
    ensures forall t :: t in FindAllTickers(s, i) ==> IsTickerWordOf(s, t)
    decreases |s| - i
  {
    if i < |s| {
      ScanStep(s, i);
      if TickerMatchAt(s, i).Some? {
        var l := TickerMatchAt(s, i).value;
        FindAllTickersSound(s, i + l);
        var t := s[i..i + l];
        assert WordAt(s, t, i);
      } else {
        FindAllTickersSound(s, i + 1);
      }
    }
  }

  /** Every whole ticker-shaped word that starts at or after `i` is collected by the scan from
      `i` (matches never overlap a later word, since words are separated). */
  lemma {:induction false} FindAllTickersComplete(s: string, i: nat, j: nat, len: nat)
    requires i <= j && IsTickerWordAt(s, j, len)
    ensures s[j..j + len] in FindAllTickers(s, i)
    decreases |s| - i
  {
    if i == j {
      ScanCollectsWordAtStart(s, j, len);
    } else {
      var n := ScanSkipsTo(s, i, j, len);
      FindAllTickersComplete(s, n, j, len);
    }
  }

  /** A scan that starts on a whole word collects it. */
  lemma ScanCollectsWordAtStart(s: string, j: nat, len: nat)
    requires IsTickerWordAt(s, j, len)
    ensures s[j..j + len] in FindAllTickers(s, j) && j in MatchPositions(s, j)
  {
    TickerMatchAtSpec(s, j, len);
    assert TickerMatchAt(s, j) == Some(len);
    ScanAdvance(s, j);
    var found, positions := FindAllTickers(s, j), MatchPositions(s, j);
    assert found == [s[j..j + len]] + FindAllTickers(s, j + len) && found[0] == s[j..j + len];
    assert positions == [j] + MatchPositions(s, j + len) && positions[0] == j;
  }

  /** A scan from `i` before a whole word at `j` moves on to some `n` in `i + 1..j` without
      losing anything the scan from `n` collects. */
  lemma ScanSkipsTo(s: string, i: nat, j: nat, len: nat) returns (n: nat)
    requires i < j && IsTickerWordAt(s, j, len)
    ensures i < n <= j
    ensures forall t :: t in FindAllTickers(s, n) ==> t in FindAllTickers(s, i)
    ensures forall p :: p in MatchPositions(s, n) ==> p in MatchPositions(s, i)
  {
    ScanAdvance(s, i);
    if TickerMatchAt(s, i).Some? {
      MatchEndsBeforeWord(s, i, j, len);
      n := i + TickerMatchAt(s, i).value;
    } else {
      n := i + 1;
    }
  }

  /** A match that starts before a whole word ends before it. */
  lemma MatchEndsBeforeWord(s: string, i: nat, j: nat, len: nat)
    requires i < j && IsTickerWordAt(s, j, len) && TickerMatchAt(s, i).Some?
    ensures i + TickerMatchAt(s, i).value <= j
  {
    var l := TickerMatchAt(s, i).value;
    TickerMatchAtSpec(s, i, l);
    TickerWordsApart(s, i, l, j, len);
  }

  /** `t` occurs as a whole ticker-shaped word at `j`. */
  predicate WordAt(s: string, t: string, j: nat) {
    IsTickerWordAt(s, j, |t|) && s[j..j + |t|] == t
  }

  /** `t` occurs as a whole word somewhere left of `j`. */
  predicate WordBefore(s: string, t: string, j: nat) {
    exists i: nat :: i < j && WordAt(s, t, i)
  }

  /** Where the matches of `findall` from `i` start, in the order the scan finds them. */
  function MatchPositions(s: string, i: nat): seq<nat>
    decreases |s| - i
  {
    if i >= |s| then []
    else match TickerMatchAt(s, i)
      case Some(len) => [i] + MatchPositions(s, i + len)
      case None => MatchPositions(s, i + 1)
  }

  /** The match positions from `i` are at or after `i` and strictly increase: the scan moves
      left to right. */
  lemma {:induction false} MatchPositionsIncrease(s: string, i: nat)
    ensures forall k :: 0 <= k < |MatchPositions(s, i)| ==> i <= MatchPositions(s, i)[k]
    ensures forall k, k' :: 0 <= k < k' < |MatchPositions(s, i)| ==> MatchPositions(s, i)[k] < MatchPositions(s, i)[k']
    decreases |s| - i
  {
    if i < |s| {
      ScanStep(s, i);
      if TickerMatchAt(s, i).Some? {
        var l := TickerMatchAt(s, i).value;
        var ps, positions := MatchPositions(s, i + l), MatchPositions(s, i);
        MatchPositionsIncrease(s, i + l);
        forall k, k' | 0 <= k < k' < |positions|
          ensures positions[k] < positions[k']
        {
          assert positions[k'] == ps[k' - 1];
          if k > 0 {
            assert positions[k] == ps[k - 1];
          }
        }
      } else {
        MatchPositionsIncrease(s, i + 1);
      }
    }
  }

  /** There is one match position per string `findall` collects. */
  lemma {:induction false} MatchPositionsLength(s: string, i: nat)
    ensures |MatchPositions(s, i)| == |FindAllTickers(s, i)|
    decreases |s| - i
  {
    if i < |s| {
      ScanStep(s, i);
      if TickerMatchAt(s, i).Some? {
        MatchPositionsLength(s, i + TickerMatchAt(s, i).value);
      } else {
        MatchPositionsLength(s, i + 1);
      }
    }
  }

  /** The k-th string `findall` collects from `i` is the whole word at the k-th match position. */
  lemma {:induction false} MatchPositionWord(s: string, i: nat, k: nat)
    requires k < |FindAllTickers(s, i)|
    ensures k < |MatchPositions(s, i)| && WordAt(s, FindAllTickers(s, i)[k], MatchPositions(s, i)[k])
    decreases |s| - i
  {
    assert i < |s|;
    ScanStep(s, i);
    if TickerMatchAt(s, i).None? {
      MatchPositionWord(s, i + 1, k);
    } else {
      var l := TickerMatchAt(s, i).value;
      if k > 0 {
        MatchPositionWord(s, i + l, k - 1);
      }
      WordAtStep(s, s[i..i + l], i, FindAllTickers(s, i + l), MatchPositions(s, i + l), k);
    }
  }

  /** Putting a match `w` at `p` in front of the later matches keeps each word at its position. */
  lemma WordAtStep(s: string, w: string, p: nat, found': seq<string>, positions': seq<nat>, k: nat)
    requires WordAt(s, w, p) && k <= |found'|
    requires k > 0 ==> k - 1 < |positions'| && WordAt(s, found'[k - 1], positions'[k - 1])
    ensures k < |[p] + positions'| && WordAt(s, ([w] + found')[k], ([p] + positions')[k])
  {
    if k > 0 {
      assert ([w] + found')[k] == found'[k - 1] && ([p] + positions')[k] == positions'[k - 1];
    }
  }

  /** The k-th string `findall` collects is the whole word at the k-th match position. */
  lemma MatchPositionsWords(s: string, i: nat)
    ensures |MatchPositions(s, i)| == |FindAllTickers(s, i)|
    ensures forall k :: 0 <= k < |FindAllTickers(s, i)| ==> WordAt(s, FindAllTickers(s, i)[k], MatchPositions(s, i)[k])
  {
    MatchPositionsLength(s, i);
    forall k | 0 <= k < |FindAllTickers(s, i)|
      ensures WordAt(s, FindAllTickers(s, i)[k], MatchPositions(s, i)[k])
    {
      MatchPositionWord(s, i, k);
    }
  }

  /** Every whole ticker-shaped word at or after `i` starts at one of the match positions. */
  lemma {:induction false} MatchPositionsComplete(s: string, i: nat, j: nat, len: nat)
    requires i <= j && IsTickerWordAt(s, j, len)
    ensures j in MatchPositions(s, i)
    decreases |s| - i
  {
    if i == j {
      ScanCollectsWordAtStart(s, j, len);
    } else {
      var n := ScanSkipsTo(s, i, j, len);
      MatchPositionsComplete(s, n, j, len);
    }
  }

  // ---------------------------------------------------------------------------
  // Filtering and de-duplication
  // ---------------------------------------------------------------------------

  /** The candidates that are not stop words, in order. */
  function WithoutStopWords(xs: seq<string>): (r: seq<string>)
    ensures forall t :: t in r <==> t in xs && t !in STOP_WORDS
  {
    if xs == [] then []
    else
      var rest := WithoutStopWords(xs[..|xs| - 1]);
      var last := xs[|xs| - 1];
      assert xs == xs[..|xs| - 1] + [last];
      if last in STOP_WORDS then rest else rest + [last]
  }

  /** Filtering works element by element. */
  lemma {:induction false} WithoutStopWordsAppend(a: seq<string>, b: seq<string>)
    ensures WithoutStopWords(a + b) == WithoutStopWords(a) + WithoutStopWords(b)
    decreases |b|
  {
    if b == [] {
      assert a + b == a;
    } else {
      var front, last := b[..|b| - 1], b[|b| - 1];
      WithoutStopWordsAppend(a, front);
      AppendFront(a, b);
      if last in STOP_WORDS {
        assert WithoutStopWords(a + b) == WithoutStopWords(a + front);
        assert WithoutStopWords(b) == WithoutStopWords(front);
      } else {
        assert WithoutStopWords(a + b) == WithoutStopWords(a + front) + [last];
        assert WithoutStopWords(b) == WithoutStopWords(front) + [last];
      }
    }
  }

  predicate NoDuplicates(xs: seq<string>) {
    forall i, j :: 0 <= i < j < |xs| ==> xs[i] != xs[j]
  }

  /** `list(dict.fromkeys(xs))`: the first occurrence of each element, in order. */
  function Dedup(xs: seq<string>): (r: seq<string>)
    ensures NoDuplicates(r)
    ensures forall x :: x in r <==> x in xs
  {
    if xs == [] then []
    else
      var rest := Dedup(xs[..|xs| - 1]);
      var last := xs[|xs| - 1];
      assert xs == xs[..|xs| - 1] + [last];
      if last in rest then rest else rest + [last]
  }

  /** The position of the first occurrence of `x` in `xs`. */
  function FirstPosition(xs: seq<string>, x: string): (k: nat)
    requires x in xs
    ensures k < |xs| && xs[k] == x && x !in xs[..k]
  {
    if xs[0] == x then 0 else FirstPosition(xs[1..], x) + 1
  }

  /** Appending an element leaves the first positions of the earlier elements unchanged. */
  lemma FirstPositionsInFront(xs: seq<string>)
    requires xs != []
    ensures forall x :: x in xs[..|xs| - 1] ==> FirstPosition(xs, x) == FirstPosition(xs[..|xs| - 1], x)
  {
    forall x | x in xs[..|xs| - 1]
      ensures FirstPosition(xs, x) == FirstPosition(xs[..|xs| - 1], x)
    {
      FirstPositionPrefix(xs, xs[..|xs| - 1], x);
    }
  }

  /** Dedup keeps first-occurrence order: its elements appear in the order in which they
      first occur in the input. */
  lemma {:induction false} DedupKeepsFirstOccurrenceOrder(xs: seq<string>)
    ensures forall i, j :: 0 <= i < j < |Dedup(xs)| ==>
      FirstPosition(xs, Dedup(xs)[i]) < FirstPosition(xs, Dedup(xs)[j])
  {
    if xs != [] {
      var front := xs[..|xs| - 1];
      var rest := Dedup(front);
      var last := xs[|xs| - 1];
      DedupKeepsFirstOccurrenceOrder(front);
      FirstPositionsInFront(xs);
      if last !in rest {
        var d := Dedup(xs);
        assert d == rest + [last];
        assert FirstPosition(xs, last) == |front| by {
          assert xs[|front|] == last && last !in xs[..|front|];
          FirstPositionIs(xs, last, |front|);
        }
        forall i, j | 0 <= i < j < |d|
          ensures FirstPosition(xs, d[i]) < FirstPosition(xs, d[j])
        {
          assert d[i] == rest[i] && d[i] in front;
          if j < |rest| {
            assert d[j] == rest[j];
          }
        }
      }
    }
  }

  lemma FirstPositionIs(xs: seq<string>, x: string, k: nat)
    requires k < |xs| && xs[k] == x && x !in xs[..k]
    ensures FirstPosition(xs, x) == k
  {
    var f := FirstPosition(xs, x);
    assert forall m :: 0 <= m < k ==> xs[..k][m] == xs[m];
    assert forall m :: 0 <= m < f ==> xs[..f][m] == xs[m];
  }

  lemma FirstPositionPrefix(xs: seq<string>, front: seq<string>, x: string)
    requires |front| <= |xs| && front == xs[..|front|] && x in front
    ensures FirstPosition(xs, x) == FirstPosition(front, x)
  {
    var k := FirstPosition(front, x);
    assert front[..k] == xs[..k];
    FirstPositionIs(xs, x, k);
  }

  // ---------------------------------------------------------------------------
  // The period pattern `q([1-4])[-\s]?(\d{4})`, case-insensitive
  // ---------------------------------------------------------------------------

  predicate AllDigits(s: string) {
    forall k :: 0 <= k < |s| ==> IsDigit(s[k])
  }

  /** The normalised period of a match starting at `i`, if the pattern matches there: the
      optional separator is tried first and dropped if four digits do not follow it. */
  function PeriodMatchAt(s: string, i: nat): (r: Option<string>)
    ensures r.Some? ==> i + 6 <= |s| && (s[i] == 'q' || s[i] == 'Q')
    ensures r.Some? ==> IsNormalPeriod(r.value) && r.value[1] == s[i + 1]
  {
    if i + 2 <= |s| && (s[i] == 'q' || s[i] == 'Q') && '1' <= s[i + 1] <= '4' then
      if i + 7 <= |s| && (s[i + 2] == '-' || IsSpace(s[i + 2])) && AllDigits(s[i + 3..i + 7]) then
        Some("Q" + [s[i + 1]] + "-" + s[i + 3..i + 7])
      else if i + 6 <= |s| && AllDigits(s[i + 2..i + 6]) then
        Some("Q" + [s[i + 1]] + "-" + s[i + 2..i + 6])
      else None
    else None
  }

  /** Four year digits at `y`. */
  predicate YearAt(s: string, y: nat) {
    y + 4 <= |s| && AllDigits(s[y..y + 4])
  }

  /** The two ways `q([1-4])[-\s]?(\d{4})` matches at `i`: the four year digits start right
      after the quarter digit, or after one '-' or whitespace separator. The match, normalised,
      is "Q", the quarter digit, "-" and the year digits. */
  lemma PeriodMatchAtSpec(s: string, i: nat, p: string)
    ensures PeriodMatchAt(s, i) == Some(p) <==>
      i + 2 <= |s| && (s[i] == 'q' || s[i] == 'Q') && '1' <= s[i + 1] <= '4' &&
      exists y: nat :: YearAt(s, y) && (y == i + 2 || (y == i + 3 && (s[i + 2] == '-' || IsSpace(s[i + 2])))) &&
        p == "Q" + [s[i + 1]] + "-" + s[y..y + 4]
  {
    if i + 2 <= |s| && (s[i] == 'q' || s[i] == 'Q') && '1' <= s[i + 1] <= '4' {
      if i + 7 <= |s| && (s[i + 2] == '-' || IsSpace(s[i + 2])) && AllDigits(s[i + 3..i + 7]) {
        assert YearAt(s, i + 3);
      } else if YearAt(s, i + 2) {
        assert s[i + 2..i + 6][0] == s[i + 2];
      }
    }
  }

  /** The separator is optional and may be a space: "Q3 2025" and "q32025" both give "Q3-2025". */
  lemma PeriodSeparators(spaced: string, joined: string)
    requires spaced == "Q3 2025" && joined == "q32025"
    ensures FallbackPeriod(spaced) == Some("Q3-2025")
    ensures FallbackPeriod(joined) == Some("Q3-2025")
  {
    assert spaced[3..7] == "2025" && AllDigits("2025") && IsSpace(spaced[2]);
    assert "Q" + [spaced[1]] + "-" + spaced[3..7] == "Q3-2025";
    assert PeriodMatchAt(spaced, 0) == Some("Q3-2025");
    assert joined[2..6] == "2025";
    assert "Q" + [joined[1]] + "-" + joined[2..6] == "Q3-2025";
    assert PeriodMatchAt(joined, 0) == Some("Q3-2025");
  }

  /** `_PERIOD_REGEX.search(question)`, normalised to "Q#-YYYY": the leftmost match. */
  function FallbackPeriod(question: string): (r: Option<string>)
    ensures r.Some? ==> IsNormalPeriod(r.value)
  {
    match FirstIndex(0, |question|, (i: nat) => PeriodMatchAt(question, i).Some?)
    case Some(i) => PeriodMatchAt(question, i)
    case None => None
  }

  /** The fallback period is the match at the leftmost position where the pattern matches,
      and there is none exactly when the pattern matches nowhere. */
  lemma FallbackPeriodLeftmost(question: string)
    ensures FallbackPeriod(question).None? <==> forall i :: 0 <= i < |question| ==> PeriodMatchAt(question, i).None?
    ensures FallbackPeriod(question).Some? ==>
      exists i :: 0 <= i < |question| && FallbackPeriod(question) == PeriodMatchAt(question, i) &&
        (forall i' :: 0 <= i' < i ==> PeriodMatchAt(question, i').None?)
  {
    var matches := (i: nat) => PeriodMatchAt(question, i).Some?;
    var f := FirstIndex(0, |question|, matches);
    if f.Some? {
      assert FallbackPeriod(question) == PeriodMatchAt(question, f.value);
      forall i' | 0 <= i' < f.value
        ensures PeriodMatchAt(question, i').None?
      {
        assert !matches(i');
      }
    } else {
      forall i' | 0 <= i' < |question|
        ensures PeriodMatchAt(question, i').None?
      {
        assert !matches(i');
      }
    }
  }

  /** A period already in normal form is found again, unchanged. */
  lemma FallbackPeriodIdempotent(p: string)
    requires IsNormalPeriod(p)
    ensures FallbackPeriod(p) == Some(p)
  {
    assert AllDigits(p[3..7]) by {
      forall k | 0 <= k < 4
        ensures IsDigit(p[3..7][k])
      {
        assert p[3..7][k] == p[3 + k];
      }
    }
    assert p == [p[0]] + [p[1]] + [p[2]] + p[3..7];
    assert PeriodMatchAt(p, 0) == Some(p);
  }

  /** The period pattern ignores case: lower-casing the question changes nothing. */
  lemma FallbackPeriodIgnoresCase(question: string)
    ensures FallbackPeriod(Lower(question)) == FallbackPeriod(question)
  {
    var low := Lower(question);
    forall i: nat | i < |question|
      ensures PeriodMatchAt(low, i) == PeriodMatchAt(question, i)
    {
      if i + 7 <= |question| {
        LowerKeepsDigits(question, i + 3, i + 7);
      }
      if i + 6 <= |question| {
        LowerKeepsDigits(question, i + 2, i + 6);
      }
    }
    FirstIndexAgree(0, |question|, (i: nat) => PeriodMatchAt(low, i).Some?, (i: nat) => PeriodMatchAt(question, i).Some?);
  }

  /** Lower-casing leaves digits alone and makes no new ones. */
  lemma LowerKeepsDigits(s: string, a: nat, b: nat)
    requires a <= b <= |s|
    ensures AllDigits(Lower(s)[a..b]) <==> AllDigits(s[a..b])
    ensures AllDigits(s[a..b]) ==> Lower(s)[a..b] == s[a..b]
  {
    assert forall k :: 0 <= k < b - a ==> Lower(s)[a..b][k] == LowerChar(s[a..b][k]);
  }

  /** The current quarter, read back by the fallback, is itself. */
  lemma CurrentQuarterRoundTrip(month: nat, year: nat)
    requires 1 <= month <= 12 && 1000 <= year <= 9999
    ensures FallbackPeriod(CurrentQuarter(month, year)) == Some(CurrentQuarter(month, year))
  {
    CurrentQuarterIsNormal(month, year);
    FallbackPeriodIdempotent(CurrentQuarter(month, year));
  }

  // ---------------------------------------------------------------------------
  // `_fallback_parse`
  // ---------------------------------------------------------------------------

  /** The tickers the fallback finds: the ticker-shaped words of the upper-cased question,
      without stop words, de-duplicated; `None` when there are none. */
  function FallbackTickers(question: string): (r: Option<seq<string>>)
    ensures r.Some? ==> |r.value| > 0 && NoDuplicates(r.value)
  {
    var tickers := Dedup(WithoutStopWords(FindAllTickers(Upper(question), 0)));
    if tickers == [] then None else Some(tickers)
  }

  /** The fallback tickers are exactly the whole words of 1 to 5 letters of the upper-cased
      question that are not stop words, without duplicates; `None` when there is no such word. */
  lemma FallbackTickersSpec(question: string)
    ensures FallbackTickers(question).Some? ==>
      var tickers := FallbackTickers(question).value;
      NoDuplicates(tickers) &&
      forall t :: t in tickers ==> t !in STOP_WORDS && IsTickerWordOf(Upper(question), t)
    ensures forall j: nat, len: nat :: IsTickerWordAt(Upper(question), j, len) && Upper(question)[j..j + len] !in STOP_WORDS ==>
      FallbackTickers(question).Some? && Upper(question)[j..j + len] in FallbackTickers(question).value
    ensures FallbackTickers(question).None? <==>
      forall j: nat, len: nat :: !(IsTickerWordAt(Upper(question), j, len) && Upper(question)[j..j + len] !in STOP_WORDS)
  {
    var s := Upper(question);
    FindAllTickersSound(s, 0);
    forall j: nat, len: nat | IsTickerWordAt(s, j, len) && s[j..j + len] !in STOP_WORDS
      ensures s[j..j + len] in Dedup(WithoutStopWords(FindAllTickers(s, 0)))
    {
      FindAllTickersComplete(s, 0, j, len);
    }
    if FallbackTickers(question).Some? {
      var t := FallbackTickers(question).value[0];
      assert IsTickerWordOf(s, t);
      var j :| 0 <= j <= |s| && IsTickerWordAt(s, j, |t|) && s[j..j + |t|] == t;
      assert IsTickerWordAt(s, j, |t|) && s[j..j + |t|] !in STOP_WORDS;
    }
  }

  /** Dropping the last element of `a + b` drops the last element of `b`. */
  lemma AppendFront(a: seq<string>, b: seq<string>)
    requires b != []
    ensures (a + b)[..|a + b| - 1] == a + b[..|b| - 1] && (a + b)[|a + b| - 1] == b[|b| - 1]
  {
  }

  /** A sequence is what precedes position `k`, the element at `k`, and what follows it. */
  lemma SplitAround(xs: seq<string>, k: nat)
    requires k < |xs|
    ensures xs == xs[..k] + [xs[k]] + xs[k + 1..]
  {
  }

  /** Filtering around a kept element: what precedes it, the element, what follows it. */
  lemma WithoutStopWordsAround(found: seq<string>, kb: nat)
    requires kb < |found| && found[kb] !in STOP_WORDS
    ensures WithoutStopWords(found) ==
      WithoutStopWords(found[..kb]) + [found[kb]] + WithoutStopWords(found[kb + 1..])
  {
    var before, y, after := found[..kb], found[kb], found[kb + 1..];
    var upTo := before + [y];
    assert upTo[..|upTo| - 1] == before && upTo[|upTo| - 1] == y;
    assert WithoutStopWords(upTo) == WithoutStopWords(before) + [y];
    SplitAround(found, kb);
    WithoutStopWordsAppend(upTo, after);
  }

  /** A candidate whose first appearance comes before that of the `kb`-th found string was
      itself found before position `kb`. */
  lemma EarlierCandidateFoundEarlier(found: seq<string>, kb: nat, x: string)
    requires kb < |found| && found[kb] in WithoutStopWords(found) && x in WithoutStopWords(found)
    requires FirstPosition(WithoutStopWords(found), x) < FirstPosition(WithoutStopWords(found), found[kb])
    ensures x in found[..kb]
  {
    var candidates, y := WithoutStopWords(found), found[kb];
    var filtered := WithoutStopWords(found[..kb]);
    var cb := |filtered|;
    WithoutStopWordsAround(found, kb);
    assert candidates[..cb + 1] == filtered + [y];
    assert FirstPosition(candidates, y) <= cb by {
      FirstPositionPrefix(candidates, candidates[..cb + 1], y);
    }
    var fx := FirstPosition(candidates, x);
    assert filtered[fx] == candidates[fx] == x;
  }

  /** A whole ticker-shaped word is collected by the scan at the index of its position. */
  lemma ScanFindsWord(s: string, t: string, j: nat)
    requires WordAt(s, t, j)
    ensures |FindAllTickers(s, 0)| == |MatchPositions(s, 0)|
    ensures exists k :: 0 <= k < |MatchPositions(s, 0)| && MatchPositions(s, 0)[k] == j && FindAllTickers(s, 0)[k] == t
  {
    var found, positions := FindAllTickers(s, 0), MatchPositions(s, 0);
    MatchPositionsWords(s, 0);
    MatchPositionsComplete(s, 0, j, |t|);
    var k :| 0 <= k < |positions| && positions[k] == j;
    assert WordAt(s, found[k], j);
    TickerWordLengthUnique(s, j, |found[k]|, |t|);
    assert found[k] == s[j..j + |t|] == t;
  }

  /** A string the scan collects earlier occurs left of the position of a later match. */
  lemma ScanEarlierWord(s: string, ka: nat, kb: nat)
    requires ka < kb < |FindAllTickers(s, 0)|
    ensures kb < |MatchPositions(s, 0)| && WordBefore(s, FindAllTickers(s, 0)[ka], MatchPositions(s, 0)[kb])
  {
    MatchPositionsWords(s, 0);
    MatchPositionsIncrease(s, 0);
    assert WordAt(s, FindAllTickers(s, 0)[ka], MatchPositions(s, 0)[ka]);
  }

  /** Of two tickers the scan of `s` yields, the earlier-listed one occurs to the left of every
      occurrence of the later one. */
  lemma TickerOccursEarlier(s: string, tickers: seq<string>, a: nat, b: nat, jb: nat)
    requires tickers == Dedup(WithoutStopWords(FindAllTickers(s, 0)))
    requires a < b < |tickers| && WordAt(s, tickers[b], jb)
    ensures WordBefore(s, tickers[a], jb)
  {
    var found := FindAllTickers(s, 0);
    var candidates := WithoutStopWords(found);
    DedupKeepsFirstOccurrenceOrder(candidates);
    assert FirstPosition(candidates, tickers[a]) < FirstPosition(candidates, tickers[b]);
    ScanFindsWord(s, tickers[b], jb);
    var kb :| 0 <= kb < |MatchPositions(s, 0)| && MatchPositions(s, 0)[kb] == jb && found[kb] == tickers[b];
    EarlierCandidateFoundEarlier(found, kb, tickers[a]);
    var ka :| 0 <= ka < kb && found[ka] == tickers[a];
    ScanEarlierWord(s, ka, kb);
  }

  /** The fallback lists tickers in the order of their first appearance in the question: for
      a ticker listed before another, every whole-word occurrence of the later one has an
      occurrence of the earlier one to its left. */
  lemma FallbackTickersOrder(question: string)
    ensures FallbackTickers(question).Some? ==>
      var s, tickers := Upper(question), FallbackTickers(question).value;
      forall a: nat, b: nat, jb: nat :: a < b < |tickers| && WordAt(s, tickers[b], jb) ==>
        WordBefore(s, tickers[a], jb)
  {
    var s := Upper(question);
    if FallbackTickers(question).Some? {
      var tickers := FallbackTickers(question).value;
      assert tickers == Dedup(WithoutStopWords(FindAllTickers(s, 0)));
      forall a: nat, b: nat, jb: nat | a < b < |tickers| && WordAt(s, tickers[b], jb)
        ensures WordBefore(s, tickers[a], jb)
      {
        TickerOccursEarlier(s, tickers, a, b, jb);
      }
    }
  }

  /** The fallback collects ordinary short words too: in "did AMZN" it finds DID as well as AMZN. */
  lemma FallbackCollectsShortWords(question: string)
    requires question == "did AMZN"
    ensures FallbackTickers(question).Some?
    ensures "DID" in FallbackTickers(question).value && "AMZN" in FallbackTickers(question).value
  {
    var s := Upper(question);
    assert |s| == 8 && s[0] == 'D' && s[1] == 'I' && s[2] == 'D' && s[3] == ' ';
    assert s[4] == 'A' && s[5] == 'M' && s[6] == 'Z' && s[7] == 'N';
    assert IsTickerWordAt(s, 0, 3) && s[0..3] == "DID";
    assert IsTickerWordAt(s, 4, 4) && s[4..8] == "AMZN";
    FallbackTickersSpec(question);
  }

  /** `_fallback_parse`: the loop over the ticker matches skips stop words and appends the
      rest; the list is then de-duplicated, and the period is the first period match. */
  method FallbackParse(question: string) returns (tickers: Option<seq<string>>, period: Option<string>)
    ensures tickers == FallbackTickers(question)
    ensures period == FallbackPeriod(question)
  {
    var found: seq<string> := [];
    var symbols := FindAllTickers(Upper(question), 0);
    for k := 0 to |symbols|
      invariant found == WithoutStopWords(symbols[..k])
    {
      var symbol := symbols[k];
      assert symbols[..k + 1] == symbols[..k] + [symbol];
      if symbol in STOP_WORDS {
        continue;
      }
      found := found + [symbol];
    }
    assert symbols[..|symbols|] == symbols;
    period := FallbackPeriod(question);
    var deduped := Dedup(found);
    tickers := if deduped == [] then None else Some(deduped);
  }

  // ---------------------------------------------------------------------------
  // `_extract_json_block`
  // ---------------------------------------------------------------------------

  /** The first index at or after `k` that is not whitespace (`\s*`, greedy). */
  function SkipSpaces(s: string, k: nat): (r: nat)
    decreases |s| - k
    ensures k <= r && (r <= |s| || r == k)
    ensures forall m :: k <= m < r ==> m < |s| && IsSpace(s[m])
    ensures r < |s| ==> !IsSpace(s[r])
  {
    if k < |s| && IsSpace(s[k]) then SkipSpaces(s, k + 1) else k
  }

  /** "```json" at `i`, the letters of "json" in any case. */
  predicate FenceOpensAt(s: string, i: nat) {
    i + 7 <= |s| && s[i..i + 3] == "```" &&
    LowerChar(s[i + 3]) == 'j' && LowerChar(s[i + 4]) == 's' && LowerChar(s[i + 5]) == 'o' && LowerChar(s[i + 6]) == 'n'
  }

  /** `\s*```` from position `k`. */
  predicate FenceClosesAt(s: string, k: nat) {
    var f := SkipSpaces(s, k);
    f + 3 <= |s| && s[f..f + 3] == "```"
  }

  /** A '}' at `e` followed by `\s*```` : where the lazy `{.*?}` of the fenced pattern may end. */
  predicate ClosesObjectAt(s: string, e: nat) {
    e < |s| && s[e] == '}' && FenceClosesAt(s, e + 1)
  }

  /** `` ```json\s*({.*?})\s*``` `` at `i`: the object opens after the fence and whitespace
      and ends at the first '}' that is followed by whitespace and a closing fence. */
  function FencedObjectAt(s: string, i: nat): Option<string> {
    if !FenceOpensAt(s, i) then None
    else
      var b := SkipSpaces(s, i + 7);
      if b < |s| && s[b] == '{' then
        match FirstIndex(b + 1, |s|, (e: nat) => ClosesObjectAt(s, e))
        case Some(e) => Some(s[b..e + 1])
        case None => None
      else None
  }

  predicate IsBrace(c: char) {
    c == '{' || c == '}'
  }

  /** `\{[^{}]*\}` at `i`: a '{' whose next brace is a '}'. */
  function BraceObjectAt(s: string, i: nat): Option<string> {
    if i < |s| && s[i] == '{' then
      match FirstIndex(i + 1, |s|, (e: nat) => e < |s| && IsBrace(s[e]))
      case Some(e) => if s[e] == '}' then Some(s[i..e + 1]) else None
      case None => None
    else None
  }

  /** `_JSON_BLOCK_REGEX.search(text)`: the fenced object at the leftmost position with one. */
  function LeftmostFencedObject(text: string): (r: Option<string>)
    ensures r.Some? ==> IsBraced(r.value) && OccursIn(r.value, text)
  {
    match FirstIndex(0, |text|, (i: nat) => FencedObjectAt(text, i).Some?)
    case Some(i) => FencedObjectShape(text, i); FencedObjectOccurs(text, i); FencedObjectAt(text, i)
    case None => None
  }

  /** `_BRACE_REGEX.search(text)`: the brace-free object at the leftmost position with one. */
  function LeftmostBraceObject(text: string): (r: Option<string>)
    ensures r.Some? ==> IsBraced(r.value) && forall k :: 0 < k < |r.value| - 1 ==> !IsBrace(r.value[k])
    ensures r.Some? ==> OccursIn(r.value, text)
  {
    match FirstIndex(0, |text|, (i: nat) => BraceObjectAt(text, i).Some?)
    case Some(i) => BraceObjectShape(text, i); BraceObjectAtSpec(text, i); BraceObjectAt(text, i)
    case None => None
  }

  /** `_extract_json_block`: the leftmost fenced object if there is one, else the leftmost
      brace-free object, else nothing. */
  function ExtractJsonBlock(text: string): (r: Option<string>)
    ensures r.Some? ==> IsBraced(r.value) && OccursIn(r.value, text)
  {
    match LeftmostFencedObject(text)
    case Some(block) => Some(block)
    case None => LeftmostBraceObject(text)
  }

  /** The leftmost fenced object is the one at the least position with one, and there is
      none exactly when no position has one. */
  lemma LeftmostFencedObjectSpec(text: string)
    ensures LeftmostFencedObject(text).None? <==> forall i :: 0 <= i < |text| ==> FencedObjectAt(text, i).None?
    ensures LeftmostFencedObject(text).Some? ==>
      exists i :: 0 <= i < |text| && LeftmostFencedObject(text) == FencedObjectAt(text, i) &&
        (forall i' :: 0 <= i' < i ==> FencedObjectAt(text, i').None?)
  {
    var fenced := (i: nat) => FencedObjectAt(text, i).Some?;
    var f := FirstIndex(0, |text|, fenced);
    if f.Some? {
      forall i' | 0 <= i' < f.value
        ensures FencedObjectAt(text, i').None?
      {
        assert !fenced(i');
      }
    } else {
      forall i' | 0 <= i' < |text|
        ensures FencedObjectAt(text, i').None?
      {
        assert !fenced(i');
      }
    }
  }

  /** The leftmost brace object is the one at the least position with one, and there is
      none exactly when no position has one. */
  lemma LeftmostBraceObjectSpec(text: string)
    ensures LeftmostBraceObject(text).None? <==> forall i :: 0 <= i < |text| ==> BraceObjectAt(text, i).None?
    ensures LeftmostBraceObject(text).Some? ==>
      exists i :: 0 <= i < |text| && LeftmostBraceObject(text) == BraceObjectAt(text, i) &&
        (forall i' :: 0 <= i' < i ==> BraceObjectAt(text, i').None?)
  {
    var brace := (i: nat) => BraceObjectAt(text, i).Some?;
    var f := FirstIndex(0, |text|, brace);
    if f.Some? {
      forall i' | 0 <= i' < f.value
        ensures BraceObjectAt(text, i').None?
      {
        assert !brace(i');
      }
    } else {
      forall i' | 0 <= i' < |text|
        ensures BraceObjectAt(text, i').None?
      {
        assert !brace(i');
      }
    }
  }

  /** A fenced object is preferred; otherwise the leftmost brace-free object is taken; there
      is no result exactly when neither pattern matches anywhere. */
  lemma ExtractJsonBlockSpec(text: string)
    ensures LeftmostFencedObject(text).Some? ==> ExtractJsonBlock(text) == LeftmostFencedObject(text)
    ensures LeftmostFencedObject(text).None? ==> ExtractJsonBlock(text) == LeftmostBraceObject(text)
    ensures ExtractJsonBlock(text).None? <==>
      forall i :: 0 <= i < |text| ==> FencedObjectAt(text, i).None? && BraceObjectAt(text, i).None?
  {
    LeftmostFencedObjectSpec(text);
    LeftmostBraceObjectSpec(text);
  }

  /** Opens with '{' and closes with '}'. */
  predicate IsBraced(block: string) {
    |block| >= 2 && block[0] == '{' && block[|block| - 1] == '}'
  }

  lemma FencedObjectShape(s: string, i: nat)
    requires FencedObjectAt(s, i).Some?
    ensures IsBraced(FencedObjectAt(s, i).value)
  {
  }

  /** `` ```json\s*({.*?})\s*``` `` matches at `i` exactly when "```json" opens there, the
      first non-space after it is '{', and some later '}' is followed by whitespace and a
      closing fence. */
  lemma FencedObjectAtSpec(s: string, i: nat)
    ensures var o := SkipSpaces(s, i + 7);
      FencedObjectAt(s, i).Some? <==>
        FenceOpensAt(s, i) && o < |s| && s[o] == '{' && exists e :: o < e && ClosesObjectAt(s, e)
  {
    var o := SkipSpaces(s, i + 7);
    if FenceOpensAt(s, i) && o < |s| && s[o] == '{' {
      var closes := (e: nat) => ClosesObjectAt(s, e);
      if FirstIndex(o + 1, |s|, closes).None? {
        forall e | o < e
          ensures !ClosesObjectAt(s, e)
        {
          if e < |s| {
            assert !closes(e);
          }
        }
      }
    }
  }

  /** The fenced match is the reply's text from the '{' after the opening fence to the first
      '}' that a closing fence follows. */
  lemma FencedObjectAtValue(s: string, i: nat)
    requires FencedObjectAt(s, i).Some?
    ensures var o := SkipSpaces(s, i + 7);
      exists e :: o < e && ClosesObjectAt(s, e) && FencedObjectAt(s, i).value == s[o..e + 1] &&
        forall e' :: o < e' < e ==> !ClosesObjectAt(s, e')
  {
    var o := SkipSpaces(s, i + 7);
    var closes := (e: nat) => ClosesObjectAt(s, e);
    var e := FirstIndex(o + 1, |s|, closes).value;
    forall e' | o < e' < e
      ensures !ClosesObjectAt(s, e')
    {
      assert !closes(e');
    }
  }

  /** `\{[^{}]*\}` matches at `i` exactly when `s[i]` is '{' and a later '}' has no brace
      between them; the match is the reply's text from `i` to that '}'. */
  lemma BraceObjectAtSpec(s: string, i: nat)
    ensures BraceObjectAt(s, i).Some? <==>
      i < |s| && s[i] == '{' &&
      exists e :: i < e < |s| && s[e] == '}' && forall k :: i < k < e ==> !IsBrace(s[k])
    ensures BraceObjectAt(s, i).Some? ==>
      exists e :: i < e < |s| && s[e] == '}' && BraceObjectAt(s, i).value == s[i..e + 1] &&
        forall k :: i < k < e ==> !IsBrace(s[k])
    ensures BraceObjectAt(s, i).Some? ==> OccursIn(BraceObjectAt(s, i).value, s)
  {
    if i < |s| && s[i] == '{' {
      var isBrace := (e: nat) => e < |s| && IsBrace(s[e]);
      match FirstIndex(i + 1, |s|, isBrace)
      case Some(e) =>
        forall k | i < k < e
          ensures !IsBrace(s[k])
        {
          assert !isBrace(k);
        }
        forall e' | i < e' < |s| && s[e'] == '}'
          ensures e <= e'
        {
          assert isBrace(e');
        }
        if s[e] == '}' {
          assert BraceObjectAt(s, i) == Some(s[i..e + 1]);
          SliceOccursIn(s, i, e + 1);
        }
      case None =>
        forall e' | i < e' < |s|
          ensures !IsBrace(s[e'])
        {
          assert !isBrace(e');
        }
    }
  }

  /** A fenced object is text of the reply. */
  lemma FencedObjectOccurs(s: string, i: nat)
    requires FencedObjectAt(s, i).Some?
    ensures OccursIn(FencedObjectAt(s, i).value, s)
  {
    FencedObjectAtValue(s, i);
    var o := SkipSpaces(s, i + 7);
    var block := FencedObjectAt(s, i).value;
    var e :| o < e && ClosesObjectAt(s, e) && block == s[o..e + 1];
    assert PieceAt(block, s, o);
  }

  /** A brace object has no brace inside it. */
  lemma BraceObjectShape(s: string, i: nat)
    requires BraceObjectAt(s, i).Some?
    ensures var block := BraceObjectAt(s, i).value;
      IsBraced(block) && forall k :: 0 < k < |block| - 1 ==> !IsBrace(block[k])
  {
    var isBrace := (e: nat) => e < |s| && IsBrace(s[e]);
    var e := FirstIndex(i + 1, |s|, isBrace).value;
    var block := s[i..e + 1];
    forall k | 0 < k < |block| - 1
      ensures !IsBrace(block[k])
    {
      assert block[k] == s[i + k] && !isBrace(i + k);
    }
  }

  /** `_extract_json_block(response) or response`: the text handed to the JSON decoder. */
  function JsonCandidate(response: string): (r: string)
    ensures r == response || IsBraced(r)
    ensures OccursIn(r, response)
    ensures ExtractJsonBlock(response).None? ==> r == response
    ensures ExtractJsonBlock(response).Some? ==> r == ExtractJsonBlock(response).value
  {
    assert PieceAt(response, response, 0);
    ExtractJsonBlock(response).GetOr(response)
  }

  // ---------------------------------------------------------------------------
  // `QueryParser.parse`
  // ---------------------------------------------------------------------------

  /** The decoded reply of the language model. `Malformed` stands for every reply on which
      decoding raises one of the caught errors. Absent keys and JSON `null` are `None`. */
  datatype Reply =
    | Malformed
    | Decoded(
        tickers: Option<seq<string>>,
        period: Option<string>,
        needsClarification: bool,
        clarificationMessage: Option<string>)

  /** The tuple returned by `parse`. */
  datatype ParsedQuery = ParsedQuery(
    tickers: Option<seq<string>>,
    period: Option<string>,
    needsClarification: bool,
    clarificationMessage: Option<string>)

  function UpperAll(tickers: seq<string>): (r: seq<string>)
    ensures |r| == |tickers| && forall i :: 0 <= i < |r| ==> r[i] == Upper(tickers[i])
  {
    seq(|tickers|, i requires 0 <= i < |tickers| => Upper(tickers[i]))
  }

  /** The post-reply logic of `QueryParser.parse`. `response` is the model's text, `decode`
      stands for `json.loads` followed by reading the four keys, and `month`/`year` for the
      clock. */
  method Parse(question: string, response: string, decode: string -> Reply, month: nat, year: nat)
    returns (result: ParsedQuery)
    requires 1 <= month <= 12
    ensures decode(JsonCandidate(response)).Malformed? ==>
      result == ParsedQuery(None, None, true, Some(PARSE_FAILURE_MESSAGE))
    ensures decode(JsonCandidate(response)).Decoded? ==>
      var reply := decode(JsonCandidate(response));
      var resolved := ResolveRelativePeriod(reply.period, month, year);
      // the model's tickers, upper-cased, are kept when there are any; otherwise the fallback's
      (result.tickers == if Present(reply.tickers) then Some(UpperAll(reply.tickers.value)) else FallbackTickers(question)) &&
      // the model's period, resolved, is kept when non-empty; otherwise the fallback's
      (result.period == if Present(resolved) then resolved else FallbackPeriod(question)) &&
      // clarification is needed when the model asks for it or something is still missing
      (result.needsClarification <==>
        reply.needsClarification || !Present(result.tickers) || !Present(result.period)) &&
      // the model's message is kept when non-empty; the default fills in when something is missing
      (result.clarificationMessage ==
        if Present(result.tickers) && Present(result.period) then reply.clarificationMessage
        else if Present(reply.clarificationMessage) then reply.clarificationMessage
        else Some(DEFAULT_CLARIFICATION))
  {
    var reply := decode(JsonCandidate(response));
    if reply.Malformed? {
      return ParsedQuery(None, None, true, Some(PARSE_FAILURE_MESSAGE));
    }
    var tickers := reply.tickers;
    var period := reply.period;
    var needsClarification := reply.needsClarification;
    var clarificationMessage := reply.clarificationMessage;

    if Present(tickers) {
      tickers := Some(UpperAll(tickers.value));
    }
    period := ResolveRelativePeriod(period, month, year);

    if !Present(tickers) || !Present(period) {
      var fallbackTickers, fallbackPeriod := FallbackParse(question);
      if !Present(tickers) {
        tickers := fallbackTickers;
      }
      if !Present(period) {
        period := fallbackPeriod;
      }
    }

    if !Present(tickers) || !Present(period) {
      needsClarification := true;
      if !Present(clarificationMessage) {
        clarificationMessage := Some(DEFAULT_CLARIFICATION);
      }
    }
    return ParsedQuery(tickers, period, needsClarification, clarificationMessage);
  }
}

=== FILE: retriever.dfy ===
/**
 * `Retriever.retrieve` (backend/app/services/retriever.py): the blank-query guard, the
 * metadata filter handed to the vector store, and the similarity gate over the store's
 * (chunk, cosine distance) results.
 *
 * The vector store is a parameter: a function from the query text, the result count and the
 * filter to the ranked results. What a filter means for one chunk's metadata is stated by
 * `WhereHolds`, following the store's `$in`, equality and `$and` operators.
 */
module Retriever {
  import opened Wrappers
  import opened Strings
  import opened DocumentModel

  /** One filter condition on chunk metadata. */
  datatype Condition =
    | TickerIn(tickers: seq<string>)     // {"ticker": {"$in": tickers}}
    | PeriodEquals(period: string)       // {"period": period}

  /** The `where` argument: `{}`, one condition on its own, or `{"$and": conditions}`. */
  datatype Where = MatchAll | Single(condition: Condition) | AllOf(conditions: seq<Condition>)

  /** What the store is asked for. */
  datatype StoreRequest = StoreRequest(query: string, k: int, where: Where)

  type Result = (Chunk, real)

  function LowerAll(tickers: seq<string>): (r: seq<string>)
    ensures |r| == |tickers| && forall i :: 0 <= i < |r| ==> r[i] == Lower(tickers[i])
  {
    seq(|tickers|, i requires 0 <= i < |tickers| => Lower(tickers[i]))
  }

  /** The `conditions` list: a ticker condition when there are tickers, then a period
      condition when there is a period. */
  function Conditions(tickers: Option<seq<string>>, period: Option<string>): seq<Condition> {
    (if Present(tickers) then [TickerIn(LowerAll(tickers.value))] else []) +
    (if Present(period) then [PeriodEquals(period.value)] else [])
  }

  /** The `where` expression, in three shapes: `{}` without tickers or period; the ticker
      condition (tickers lower-cased, in order) or the period condition alone when only one
      is given; both under `$and`, ticker condition first, when both are given. */
  function BuildWhere(tickers: Option<seq<string>>, period: Option<string>): (w: Where)
    ensures !Present(tickers) && !Present(period) ==> w == MatchAll
    ensures Present(tickers) && !Present(period) ==> w == Single(TickerIn(LowerAll(tickers.value)))
    ensures !Present(tickers) && Present(period) ==> w == Single(PeriodEquals(period.value))
    ensures Present(tickers) && Present(period) ==>
      w == AllOf([TickerIn(LowerAll(tickers.value)), PeriodEquals(period.value)])
  {
    var conditions := Conditions(tickers, period);
    if |conditions| == 0 then MatchAll
    else if |conditions| == 1 then Single(conditions[0])
    else
      assert conditions == [TickerIn(LowerAll(tickers.value)), PeriodEquals(period.value)];
      AllOf(conditions)
  }

  /** Whether one condition holds for a chunk's metadata. */
  predicate ConditionHolds(c: Condition, meta: map<string, MetaVal>) {
    match c
    case TickerIn(tickers) => "ticker" in meta && meta["ticker"].S? && meta["ticker"].str in tickers
    case PeriodEquals(period) => "period" in meta && meta["period"] == S(period)
  }

  /** Whether a filter admits a chunk's metadata. */
  predicate WhereHolds(w: Where, meta: map<string, MetaVal>) {
    match w
    case MatchAll => true
    case Single(c) => ConditionHolds(c, meta)
    case AllOf(cs) => forall i :: 0 <= i < |cs| ==> ConditionHolds(cs[i], meta)
  }

  /** The filter admits exactly the chunks whose ticker is one of the requested tickers
      (compared lower-case) when tickers are given, and whose period is the requested one
      when a period is given. */
  lemma BuildWhereMeaning(tickers: Option<seq<string>>, period: Option<string>, meta: map<string, MetaVal>)
    ensures WhereHolds(BuildWhere(tickers, period), meta) <==>
      (Present(tickers) ==> "ticker" in meta && meta["ticker"].S? && meta["ticker"].str in LowerAll(tickers.value)) &&
      (Present(period) ==> "period" in meta && meta["period"] == S(period.value))
  {
    var w := BuildWhere(tickers, period);
    if Present(tickers) && Present(period) {
      assert w.conditions[0] == TickerIn(LowerAll(tickers.value));
      assert w.conditions[1] == PeriodEquals(period.value);
    }
  }

  // ---------------------------------------------------------------------------
  // The similarity gate
  // ---------------------------------------------------------------------------

  /** `max(0.0, min(1.0, 1.0 - distance / 2.0))`: the cosine distance in [0, 2] turned into a
      similarity in [0, 1]. */
  function Similarity(distance: real): (s: real)
    ensures 0.0 <= s <= 1.0
  {
    var raw := 1.0 - distance / 2.0;
    var capped := if raw < 1.0 then raw else 1.0;
    if capped > 0.0 then capped else 0.0
  }

  /** The gate in terms of the distance: with a threshold in (0, 1] a result is kept exactly
      when its distance is at most 2 - 2 * threshold; a threshold at or below 0 keeps
      everything and one above 1 keeps nothing. */
  lemma SimilarityThreshold(distance: real, minSimilarity: real)
    ensures 0.0 < minSimilarity <= 1.0 ==>
      (Similarity(distance) >= minSimilarity <==> distance <= 2.0 - 2.0 * minSimilarity)
    ensures minSimilarity <= 0.0 ==> Similarity(distance) >= minSimilarity
    ensures minSimilarity > 1.0 ==> Similarity(distance) < minSimilarity
  {
  }

  /** A larger distance never gives a larger similarity. */
  lemma SimilarityMonotone(d1: real, d2: real)
    requires d1 <= d2
    ensures Similarity(d2) <= Similarity(d1)
  {
  }

  /** The results whose similarity reaches the threshold, in their original order: a result
      is kept exactly when it is one of the input results and its similarity reaches the
      threshold, and the output is never longer than the input. */
  function Gate(results: seq<Result>, minSimilarity: real): (kept: seq<Result>)
    ensures |kept| <= |results|
    ensures forall x :: x in kept <==> x in results && Similarity(x.1) >= minSimilarity
  {
    if results == [] then []
    else
      var front := Gate(results[..|results| - 1], minSimilarity);
      var last := results[|results| - 1];
      assert results == results[..|results| - 1] + [last];
      if Similarity(last.1) >= minSimilarity then front + [last] else front
  }

  /** The gate works result by result: gating a concatenation concatenates the gated parts,
      so the kept results keep their relative order. */
  lemma {:induction false} GateAppend(a: seq<Result>, b: seq<Result>, minSimilarity: real)
    ensures Gate(a + b, minSimilarity) == Gate(a, minSimilarity) + Gate(b, minSimilarity)
    decreases |b|
  {
    if b == [] {
      assert a + b == a;
    } else {
      var front, last := b[..|b| - 1], b[|b| - 1];
      var kept: seq<Result> := if Similarity(last.1) >= minSimilarity then [last] else [];
      GateAppend(a, front, minSimilarity);
      assert (a + b)[..|a + b| - 1] == a + front && (a + b)[|a + b| - 1] == last;
      assert Gate(a + b, minSimilarity) == Gate(a + front, minSimilarity) + kept;
      assert Gate(b, minSimilarity) == Gate(front, minSimilarity) + kept;
    }
  }

  /** A threshold at or below 0 keeps every result. */
  lemma {:induction false} GateKeepsAll(results: seq<Result>, minSimilarity: real)
    requires minSimilarity <= 0.0
    ensures Gate(results, minSimilarity) == results
  {
    if results != [] {
      GateKeepsAll(results[..|results| - 1], minSimilarity);
      assert results == results[..|results| - 1] + [results[|results| - 1]];
    }
  }

  // ---------------------------------------------------------------------------
  // `Retriever.retrieve`
  // ---------------------------------------------------------------------------

  /** `retrieve`: a blank query is refused unless blank queries are allowed; otherwise the
      store is asked with the query and `k` unchanged and the built filter, and its results
      are returned as they are, or through the gate when a threshold is given. `request`
      records what the store was asked, `None` when it was not asked at all. */
  method Retrieve(
    query: string,
    k: int,
    tickers: Option<seq<string>>,
    period: Option<string>,
    minSimilarity: Option<real>,
    allowBlankQuery: bool,
    store: (string, int, Where) -> seq<Result>)
    returns (results: seq<Result>, ghost request: Option<StoreRequest>)
    ensures IsBlank(query) && !allowBlankQuery ==> results == []
    ensures !(IsBlank(query) && !allowBlankQuery) ==>
      var found := store(query, k, BuildWhere(tickers, period));
      results == if minSimilarity.None? then found else Gate(found, minSimilarity.value)
    ensures request == if IsBlank(query) && !allowBlankQuery then None
      else Some(StoreRequest(query, k, BuildWhere(tickers, period)))
  {
    if Strip(query) == [] && !allowBlankQuery {
      return [], None;
    }

    var where := BuildWhere(tickers, period);
    var found := store(query, k, where);
    request := Some(StoreRequest(query, k, where));

    if minSimilarity.None? {
      return found, request;
    }

    var filtered: seq<Result> := [];
    for n := 0 to |found|
      invariant filtered == Gate(found[..n], minSimilarity.value)
    {
      var (chunk, distance) := found[n];
      assert found[..n + 1][..n] == found[..n] && found[..n + 1][n] == (chunk, distance);
      assert Gate(found[..n + 1], minSimilarity.value) ==
        if Similarity(distance) >= minSimilarity.value then filtered + [(chunk, distance)] else filtered;
      if Similarity(distance) >= minSimilarity.value {
        filtered := filtered + [(chunk, distance)];
      }
    }
    assert found[..|found|] == found;
    return filtered, request;
  }
}

=== FILE: strings.dfy ===
/**
 * The pieces of Python's `str` behaviour that the ingestion and query code relies on:
 * whitespace and stripping, ASCII case mapping, joining and splitting on a separator,
 * decimal formatting of integers, and a leftmost search used to model `re.search`.
 * Everything is restricted to ASCII.
 */
module Strings {
  import opened Wrappers

  // ---------------------------------------------------------------------------
  // Whitespace, `strip` and `rstrip`
  // ---------------------------------------------------------------------------

  /** `str.isspace()` within ASCII: space, tab, line feed, vertical tab, form feed,
      carriage return and the four information separators 0x1C..0x1F. */
  predicate IsSpace(c: char) {
    c == ' ' || ('\t' <= c <= '\r') || ('\U{1C}' <= c <= '\U{1F}')
  }

  /** A string with nothing but whitespace in it (the empty string included). */
  predicate IsBlank(s: string) {
    forall i :: 0 <= i < |s| ==> IsSpace(s[i])
  }

  /** `s.rstrip()`: `s` without its trailing whitespace. */
  function RStrip(s: string): string {
    if s == [] || !IsSpace(s[|s| - 1]) then s else RStrip(s[..|s| - 1])
  }

  /** RStrip keeps the longest prefix of `s` that does not end in whitespace. */
  lemma {:induction false} RStripSpec(s: string)
    ensures |RStrip(s)| <= |s| && RStrip(s) == s[..|RStrip(s)|]
    ensures RStrip(s) == [] || !IsSpace(RStrip(s)[|RStrip(s)| - 1])
    ensures forall i :: |RStrip(s)| <= i < |s| ==> IsSpace(s[i])
  {
    if s != [] && IsSpace(s[|s| - 1]) {
      var p := s[..|s| - 1];
      RStripSpec(p);
      assert RStrip(s) == RStrip(p) == p[..|RStrip(p)|] == s[..|RStrip(p)|];
      forall i | |RStrip(p)| <= i < |s|
        ensures IsSpace(s[i])
      {
        if i < |p| {
          assert s[i] == p[i];
        }
      }
    } else {
      assert RStrip(s) == s == s[..|s|];
    }
  }

  /** `s.lstrip()`: `s` without its leading whitespace. */
  function LStrip(s: string): string {
    if s == [] || !IsSpace(s[0]) then s else LStrip(s[1..])
  }

  /** LStrip keeps the longest suffix of `s` that does not start with whitespace. */
  lemma {:induction false} LStripSpec(s: string)
    ensures |LStrip(s)| <= |s| && LStrip(s) == s[|s| - |LStrip(s)|..]
    ensures LStrip(s) == [] || !IsSpace(LStrip(s)[0])
    ensures forall i :: 0 <= i < |s| - |LStrip(s)| ==> IsSpace(s[i])
  {
    if s != [] && IsSpace(s[0]) {
      var p := s[1..];
      LStripSpec(p);
      var k := |s| - |LStrip(p)|;
      assert LStrip(s) == LStrip(p) == p[k - 1..] == s[k..];
      forall i | 0 <= i < k
        ensures IsSpace(s[i])
      {
        if i > 0 {
          assert s[i] == p[i - 1];
        }
      }
    } else {
      assert LStrip(s) == s == s[0..];
    }
  }

  /** `s.strip()`: `s` without leading and trailing whitespace. It is empty exactly when `s` is blank. */
  function Strip(s: string): (r: string)
    ensures r == [] <==> IsBlank(s)
  {
    RStripSpec(s);
    LStripSpec(RStrip(s));
    LStrip(RStrip(s))
  }

  /** Only whitespace lies before `a` and from `b` on. */
  predicate BlankOutside(s: string, a: nat, b: nat) {
    a <= b <= |s| && IsBlank(s[..a]) && IsBlank(s[b..])
  }

  /** The stripped string is a piece of `s` with only whitespace cut from either end; it neither
      starts nor ends with whitespace, and stripping it again changes nothing. */
  lemma StripSpec(s: string)
    ensures exists a: nat, b: nat :: BlankOutside(s, a, b) && Strip(s) == s[a..b]
    ensures Strip(s) == [] || (!IsSpace(Strip(s)[0]) && !IsSpace(Strip(s)[|Strip(s)| - 1]))
    ensures Strip(Strip(s)) == Strip(s)
  {
    StripSlice(s);
    var r := RStrip(s);
    RStripSpec(s);
    LStripSpec(r);
    var t := LStrip(r);
    if t != [] {
      assert t[|t| - 1] == r[|r| - 1];
      assert RStrip(t) == t;
    }
  }

  /** Where `Strip` cuts: after the leading whitespace of the right-stripped string, and at its end. */
  lemma StripSlice(s: string)
    ensures |Strip(s)| <= |RStrip(s)|
    ensures BlankOutside(s, |RStrip(s)| - |Strip(s)|, |RStrip(s)|)
    ensures Strip(s) == s[|RStrip(s)| - |Strip(s)|..|RStrip(s)|]
  {
    var r := RStrip(s);
    var t := LStrip(r);
    assert Strip(s) == t;
    assert |r| <= |s| && r == s[..|r|] && forall i :: |r| <= i < |s| ==> IsSpace(s[i]) by {
      RStripSpec(s);
    }
    assert |t| <= |r| && t == r[|r| - |t|..] && forall i :: 0 <= i < |r| - |t| ==> IsSpace(r[i]) by {
      LStripSpec(r);
    }
    var a, b := |r| - |t|, |r|;
    assert t == s[a..b] && r[..a] == s[..a] by {
      PieceOfPrefix(s, a, b);
    }
    assert IsBlank(s[..a]) by {
      BlankPrefix(r, a);
    }
    assert IsBlank(s[b..]) by {
      BlankSuffix(s, b);
    }
  }

  /** Cutting a prefix and then a piece of it. */
  lemma PieceOfPrefix(s: string, a: nat, b: nat)
    requires a <= b <= |s|
    ensures s[..b][a..] == s[a..b] && s[..b][..a] == s[..a]
  {
  }

  /** A prefix made of whitespace characters is blank. */
  lemma BlankPrefix(s: string, a: nat)
    requires a <= |s| && forall i :: 0 <= i < a ==> IsSpace(s[i])
    ensures IsBlank(s[..a])
  {
    assert forall i :: 0 <= i < a ==> s[..a][i] == s[i];
  }

  /** A suffix made of whitespace characters is blank. */
  lemma BlankSuffix(s: string, b: nat)
    requires b <= |s| && forall i :: b <= i < |s| ==> IsSpace(s[i])
    ensures IsBlank(s[b..])
  {
    assert forall i :: 0 <= i < |s| - b ==> s[b..][i] == s[b + i];
  }

  // ---------------------------------------------------------------------------
  // ASCII case mapping (`str.upper()`, `str.lower()`)
  // ---------------------------------------------------------------------------

  function UpperChar(c: char): char {
    if 'a' <= c <= 'z' then (c as int - 32) as char else c
  }

  function LowerChar(c: char): char {
    if 'A' <= c <= 'Z' then (c as int + 32) as char else c
  }

  function Upper(s: string): string {
    seq(|s|, i requires 0 <= i < |s| => UpperChar(s[i]))
  }

  function Lower(s: string): string {
    seq(|s|, i requires 0 <= i < |s| => LowerChar(s[i]))
  }

  // ---------------------------------------------------------------------------
  // `sep.join(parts)` and splitting on one separator character
  // ---------------------------------------------------------------------------

  /** `sep.join(parts)`. */
  function Join(sep: string, parts: seq<string>): string {
    if |parts| == 0 then ""
    else if |parts| == 1 then parts[0]
    else parts[0] + sep + Join(sep, parts[1..])
  }

  /** `s.split(sep)` for a one-character separator: always at least one piece, and no piece
      holds the separator. */
  function SplitOn(s: string, sep: char): (r: seq<string>)
    ensures |r| >= 1
    ensures forall i :: 0 <= i < |r| ==> sep !in r[i]
  {
    if s == [] then [[]]
    else
      var rest := SplitOn(s[1..], sep);
      if s[0] == sep then [[]] + rest else [[s[0]] + rest[0]] + rest[1..]
  }

  /** Splitting and re-joining with the same separator gives back the string. */
  lemma {:induction false} JoinSplitOn(s: string, sep: char)
    ensures Join([sep], SplitOn(s, sep)) == s
  {
    if s != [] {
      var rest := SplitOn(s[1..], sep);
      JoinSplitOn(s[1..], sep);
      if s[0] == sep {
        assert SplitOn(s, sep) == [[]] + rest;
        assert Join([sep], [[]] + rest) == [] + [sep] + Join([sep], rest);
      } else {
        var r := SplitOn(s, sep);
        assert r == [[s[0]] + rest[0]] + rest[1..];
        if |rest| == 1 {
          assert Join([sep], r) == [s[0]] + rest[0];
        } else {
          assert r[1..] == rest[1..];
          assert Join([sep], rest) == rest[0] + [sep] + Join([sep], rest[1..]);
          assert Join([sep], r) == [s[0]] + rest[0] + [sep] + Join([sep], rest[1..]);
        }
      }
    }
  }

  /** A string without the separator is one piece. */
  lemma {:induction false} SplitOnNoSeparator(s: string, sep: char)
    requires sep !in s
    ensures SplitOn(s, sep) == [s]
  {
    if s != [] {
      SplitOnNoSeparator(s[1..], sep);
      assert [s[0]] + s[1..] == s;
    }
  }

  /** Splitting `a + [sep] + b`, where `a` holds no separator, gives `a` and then the pieces of `b`. */
  lemma {:induction false} SplitOnAppend(a: string, b: string, sep: char)
    requires sep !in a
    ensures SplitOn(a + [sep] + b, sep) == [a] + SplitOn(b, sep)
  {
    var s := a + [sep] + b;
    if a == [] {
      assert s[1..] == b;
    } else {
      assert s[1..] == a[1..] + [sep] + b;
      SplitOnAppend(a[1..], b, sep);
      assert [a[0]] + a[1..] == a;
    }
  }

  /** Joining pieces that do not hold the separator and splitting again gives back the pieces. */
  lemma {:induction false} SplitOnJoin(parts: seq<string>, sep: char)
    requires |parts| >= 1
    requires forall i :: 0 <= i < |parts| ==> sep !in parts[i]
    ensures SplitOn(Join([sep], parts), sep) == parts
  {
    if |parts| == 1 {
      SplitOnNoSeparator(parts[0], sep);
    } else {
      SplitOnJoin(parts[1..], sep);
      SplitOnAppend(parts[0], Join([sep], parts[1..]), sep);
      assert [parts[0]] + parts[1..] == parts;
    }
  }

  /** A character found in neither the separator nor any part is not in the joined string. */
  lemma {:induction false} JoinExcludes(sep: string, parts: seq<string>, c: char)
    requires c !in sep
    requires forall i :: 0 <= i < |parts| ==> c !in parts[i]
    ensures c !in Join(sep, parts)
  {
    if |parts| > 1 {
      JoinExcludes(sep, parts[1..], c);
    }
  }

  /** `s.splitlines()` restricted to '\n' as the only line break: the empty string has no
      lines, and a final line break does not open an empty last line. */
  function SplitLines(s: string): (r: seq<string>)
    ensures forall i :: 0 <= i < |r| ==> '\n' !in r[i]
  {
    if s == [] then []
    else if s[|s| - 1] == '\n' then SplitOn(s[..|s| - 1], '\n')
    else SplitOn(s, '\n')
  }

  /** Re-joining the lines with '\n' restores the text, up to its final line break. */
  lemma SplitLinesRoundTrip(s: string)
    ensures Join("\n", SplitLines(s)) + (if s != [] && s[|s| - 1] == '\n' then "\n" else "") == s
  {
    if s != [] {
      if s[|s| - 1] == '\n' {
        JoinSplitOn(s[..|s| - 1], '\n');
        assert s == s[..|s| - 1] + "\n";
      } else {
        JoinSplitOn(s, '\n');
      }
    }
  }

  // ---------------------------------------------------------------------------
  // Decimal numerals (`str(n)` for integers, and reading a numeral back)
  // ---------------------------------------------------------------------------

  predicate IsDigit(c: char) {
    '0' <= c <= '9'
  }

  /** A non-empty string of decimal digits. */
  predicate IsNumeral(s: string) {
    s != [] && forall i :: 0 <= i < |s| ==> IsDigit(s[i])
  }

  function DigitChar(d: nat): (c: char)
    requires d < 10
    ensures IsDigit(c)
  {
    ('0' as int + d) as char
  }

  function DigitValue(c: char): (d: nat)
    requires IsDigit(c)
    ensures d < 10 && DigitChar(d) == c
  {
    c as int - '0' as int
  }

  /** `str(n)` for a natural number: its decimal numeral without leading zeros. */
  function NatToString(n: nat): (r: string)
    ensures IsNumeral(r)
    ensures (|r| == 1) == (n < 10)
  {
    if n < 10 then [DigitChar(n)] else NatToString(n / 10) + [DigitChar(n % 10)]
  }

  /** `str(i)` for any integer. */
  function IntToString(i: int): (r: string)
    ensures i >= 0 ==> IsNumeral(r) && ParseNat(r) == i
    ensures i < 0 ==> |r| >= 2 && r[0] == '-' && IsNumeral(r[1..]) && ParseNat(r[1..]) == -i
  {
    if i < 0 then
      var digits := NatToString(-i);
      ParseNatToString(-i);
      assert ("-" + digits)[1..] == digits;
      "-" + digits
    else
      ParseNatToString(i);
      NatToString(i)
  }

  /** `int(s)` for a string of decimal digits. */
  function ParseNat(s: string): nat
    requires forall i :: 0 <= i < |s| ==> IsDigit(s[i])
  {
    if s == [] then 0 else ParseNat(s[..|s| - 1]) * 10 + DigitValue(s[|s| - 1])
  }

  /** Reading back the numeral of `n` gives `n`: decimal formatting is injective. */
  lemma {:induction false} ParseNatToString(n: nat)
    ensures ParseNat(NatToString(n)) == n
  {
    var r := NatToString(n);
    if n >= 10 {
      ParseNatToString(n / 10);
      assert r[..|r| - 1] == NatToString(n / 10);
    } else {
      assert r[..|r| - 1] == [];
    }
  }

  /** A four-digit year prints as exactly four digits. */
  lemma FourDigitNumeral(n: nat)
    requires 1000 <= n <= 9999
    ensures |NatToString(n)| == 4
  {
    assert NatToString(n) == NatToString(n / 10) + [DigitChar(n % 10)];
    assert NatToString(n / 10) == NatToString(n / 100) + [DigitChar((n / 10) % 10)];
    assert NatToString(n / 100) == NatToString(n / 1000) + [DigitChar((n / 100) % 10)];
  }

  /** `t` sits in `s` at offset `o`. */
  predicate PieceAt(t: string, s: string, o: nat) {
    o + |t| <= |s| && s[o..o + |t|] == t
  }

  /** `t` is a contiguous piece of `s`. */
  predicate OccursIn(t: string, s: string) {
    exists o: nat :: o <= |s| && PieceAt(t, s, o)
  }

  lemma SliceOccursIn(s: string, a: nat, b: nat)
    requires a <= b <= |s|
    ensures OccursIn(s[a..b], s)
  {
    assert PieceAt(s[a..b], s, a);
  }

  // ---------------------------------------------------------------------------
  // Leftmost search (the scan that `re.search` performs over start positions)
  // ---------------------------------------------------------------------------

  /** The least index in `lo..hi` that satisfies `p`, if any. */
  function FirstIndex(lo: nat, hi: nat, p: nat -> bool): (r: Option<nat>)
    decreases hi - lo
    ensures r.Some? ==> lo <= r.value < hi && p(r.value)
    ensures r.Some? ==> forall i :: lo <= i < r.value ==> !p(i)
    ensures r.None? ==> forall i :: lo <= i < hi ==> !p(i)
  {
    if lo >= hi then None else if p(lo) then Some(lo) else FirstIndex(lo + 1, hi, p)
  }

  /** Two tests that agree on `lo..hi` find the same index. */
  lemma {:induction false} FirstIndexAgree(lo: nat, hi: nat, p: nat -> bool, q: nat -> bool)
    requires forall i :: lo <= i < hi ==> p(i) == q(i)
    ensures FirstIndex(lo, hi, p) == FirstIndex(lo, hi, q)
    decreases hi - lo
  {
    if lo < hi {
      FirstIndexAgree(lo + 1, hi, p, q);
    }
  }

  /** No `sep` follows the separator in `x + [sep] + y` when `y` holds none. */
  lemma SeparatorIsLast(x: string, y: string, sep: char)
    requires sep !in y
    ensures forall j :: |x| < j < |x + [sep] + y| ==> (x + [sep] + y)[j] != sep
  {
    forall j | |x| < j < |x + [sep] + y|
      ensures (x + [sep] + y)[j] != sep
    {
      assert (x + [sep] + y)[j] == y[j - |x| - 1];
    }
  }

  /** Splitting a string at its last occurrence of `sep`: if `x + [sep] + y` and
      `x' + [sep] + y'` are the same string and neither `y` nor `y'` holds `sep`,
      then the two splits agree. */
  lemma SplitAtLastSeparator(x: string, y: string, x': string, y': string, sep: char)
    requires sep !in y && sep !in y'
    requires x + [sep] + y == x' + [sep] + y'
    ensures x == x' && y == y'
  {
    var s := x + [sep] + y;
    SeparatorIsLast(x, y, sep);
    SeparatorIsLast(x', y', sep);
    assert s[|x|] == sep && s[|x'|] == sep;
    assert |x| == |x'|;
    assert y == s[|x| + 1..] && y' == s[|x'| + 1..];
    assert x == s[..|x|] && x' == s[..|x'|];
  }
}

=== FILE: wrappers.dfy ===
/** Python's `Optional[...]`: a value that may be `None`. */
module Wrappers {

  datatype Option<+T> = None | Some(value: T) {

    /** The value, or `default` when there is none (Python's `x or default` for a non-falsy `x`). */
    function GetOr(default: T): T {
      match this
      case Some(v) => v
      case None => default
    }
  }

  /** Python truthiness of an optional list or string: present and not empty. */
  predicate Present<T>(x: Option<seq<T>>) {
    x.Some? && |x.value| > 0
  }
}
